=== FILE: README.md ===
# Remy restaurant guide: a Dafny model of the conversation engine

Remy is a chat backend that recommends restaurants. A messaging platform posts
each user message to `POST /recommendation`. The handler keeps a per-user
session of four slots: city, zone (neighbourhood), cuisine and budget. It
merges what the request body and a language model extract from the message,
then walks a fixed decision cascade:

- a reset request clears the session;
- a greeting is due after fifteen minutes of silence or on "hello";
- otherwise the handler asks for a missing city, then a missing cuisine;
- it then geocodes the city and zone;
- it searches a live map service for places around the pin, widening the
  radius once;
- it cleans, de-duplicates, scores, filters and ranks the places;
- it answers with the top nine and a follow-up question.

`db.js` holds a second lookup over a curated catalogue: entries within a
radius that serve a cuisine, the most prestigious first.

The model is split into nine modules:

- `Text` (`text.dfy`) models the JavaScript string built-ins the code relies
  on: `trim`, `toLowerCase`, `||`, the `/\d{2,6}/` match, `split` and `join`.
- `Optional` (`optional.dfy`) holds a missing value (`Option`) and the outcome
  of a call into an outside service (`Fetch`: answered, or threw).
- `Seqs` (`seqs.dfy`) covers the stable `Array.prototype.sort` under a
  two-key comparator, `slice(0, end)`, and "sort, then keep the first n".
- `SlotStore` (`slots.dfy`) holds the session store, `reset` and the slot
  merge `setSlots`.
- `Patterns` (`patterns.dfy`) holds the regular expressions of the engine as
  substring and word-sequence tests on lower-cased text. These are language
  detection, greeting, reset, surprise, the cuisine and budget extractors,
  city aliases, cuisine synonyms and the ranking lexicons.
- `Places` (`places.dfy`) holds `toPlace`, `dedupe`, `isChain` and
  `scoreQuality`.
- `Search` (`search.dfy`) holds `geocodeCityZone` and `searchPlaces`. The
  geocoder and the map service are oracle parameters: functions from a
  request to the service's answer.
- `Turn` (`turn.dfy`) holds the handler. It is one pure function from the
  session store, the request body, the clock reading and the three oracles
  (language model, geocoder, map service) to the new store and the response.
- `Prestige` (`prestige.dfy`) holds `findTopByPrestige`. The catalogue and the
  great-circle distance are parameters.

Three behaviours of the code are easy to misread, and the model follows the
code in each:

- `setSlots` merges with an object spread, so any key present in the update
  overwrites the stored slot, even with an empty string. An empty value does
  not leave the old one in place.
- The handler's first merge always carries all four keys. A slot that
  neither the request body nor the language model supplies is therefore
  emptied on every turn. `Turn.TurnForgetsUnsupplied` states this of the
  two merges, and `Turn.HandleTurn` states that the handler stores what
  they produce.
- The code has no intent router and no memory of the last results.

## Model

| member | source | states |
|---|---|---|
| Text.Trim | index.js:42 | the trimmed string has no white space at either end and is no longer than the input |
| Text.TrimInfix | index.js:42 | the trimmed string is the infix left after removing only white space from both ends |
| Text.TrimIdentity | index.js:42 | a string is its own trim exactly when no white space stands at either end |
| Text.TrimIdempotent | index.js:42 | trimming twice gives the same as trimming once |
| Text.LowerChar | index.js:60 | the model's lower-casing, which covers ASCII and Latin-1 only (see "## Left out"): A-Z go to a-z by adding 32 to the code, every other ASCII character is unchanged, and so is every character above U+00DE |
| Text.Lower | index.js:60 | `toLowerCase` keeps the length and lower-cases each character in place |
| Text.Or | index.js:371 | `a \|\| b` on strings is `a` when `a` is non-empty and `b` when it is empty, and empty only when both are |
| Text.FirstDigitTokenEmpty | index.js:45 | `/\d{2,6}/` finds nothing exactly when no two digits stand side by side |
| Text.FirstDigitTokenAt | index.js:45 | the match starts at the leftmost pair of adjacent digits |
| Text.DigitTokenFixed | index.js:45 | a run of two to six digits is its own match, so a stored budget survives being cut again |
| Text.TokenTrimmed | index.js:52 | the cut budget is unchanged by the final trim |
| Text.FirstDigitTokenShape | index.js:45-46 | the cut budget is empty or a run of two to six digits |
| Text.Split | index.js:244 | `split` gives at least one piece and no piece contains the separator |
| Text.SplitJoin | index.js:244 | joining the pieces of a split with the separator gives back the string |
| Seqs.SortBy | index.js:315 | the sorted array is a permutation of the input in which nothing precedes an element placed before it |
| Seqs.SortStable | db.js:33 | elements of equal rank keep their relative order through the sort |
| Seqs.SliceTo | index.js:317 | `slice(0, end)` is a prefix of length min(end, length), and for a negative end the length minus abs(end), or 0 |
| Seqs.Top | db.js:33-34 | sort-then-slice keeps elements of the input, in rank order, and nothing left out strictly precedes anything kept |
| SlotStore.SessionOf | index.js:19-30 | an unknown user gets a new session (Spanish, empty slots, time 0) that is stored; other users' sessions are untouched |
| SlotStore.Reset | index.js:32-38 | reset empties the slots, `lastAsked` and `greetedAt`, keeps the language and stamps the time |
| SlotStore.ResetIsFresh | index.js:32-38 | a reset session is a new session except for its language and last-message time |
| SlotStore.CutBudget | index.js:44-47 | a budget is cut to its first run of two to six digits, or to "" |
| SlotStore.MergeSlots | index.js:40-53 | each merged slot is the trimmed update value when the key is present, else the trimmed stored value; the budget is cut to digits; the result is normalized |
| SlotStore.SetSlots | index.js:40-56 | `setSlots` stores the merged slots, stamps the time and keeps language, `greetedAt` and `lastAsked` |
| SlotStore.MergeKeepsAbsentOverwritesPresent | index.js:43 | over normalized slots, an absent key keeps the stored value and a present key replaces it, even with "" |
| SlotStore.MergeNoUpdate | index.js:40 | merging the empty object into normalized slots changes nothing |
| SlotStore.MergeIdempotent | index.js:40-53 | applying the same update twice gives the same slots as once |
| Patterns.DetectLang | index.js:59-64 | the language is "es" exactly when the text has a Spanish character or keyword, else "en" |
| Patterns.UseLang | index.js:66-68 | `useLang` always takes the detected language, since detection never answers "" |
| Patterns.MatchesWords | index.js:72 | an alternation of words matches exactly when one of its words occurs somewhere in the lower-cased text |
| Patterns.GreetingWholeWord | index.js:71 | a greeting word counts only between word boundaries: "hi" greets, "this" does not |
| Patterns.ResetAnywhere | index.js:72 | a message asks for a reset exactly when one of the reset words occurs in it, in any letter case, even inside a longer word |
| Patterns.StreetFoodWords | index.js:270-272 | street food is wanted exactly when the cuisine mentions one of the street-food words in any letter case |
| Patterns.FirstRow | index.js:97 | the synonym row chosen is the first whose expression matches the message |
| Patterns.RxCuisine | index.js:83-100 | the cuisine is the canonical value of the first synonym row that matches; when none does, it is the trimmed capture of the leftmost craving phrase, made of the capture class, or "" when the fallback finds nothing |
| Patterns.ClassRunMaximal | index.js:98 | the greedy capture `[a-záéíóúüñ .'-]+` stops only at the end of the text or at a character outside the class |
| Patterns.CaptureStart | index.js:98 | the greedy `\s+` gives back characters until the class can match: the start is the last class character no later than the end of the white space, or the first position after the trigger when there is none |
| Patterns.CaptureAfter | index.js:98 | after a trigger ending at j: nothing exactly when no class character lies in the white space after j or just past it; the class run from the end of the white space when a class character follows it; otherwise the class run from the last class character inside the white space |
| Patterns.Leftmost | index.js:98 | a scan from the left answers the value at the first position that answers, and nothing only when no position answers |
| Patterns.Fallback | index.js:98 | the craving fallback captures at the leftmost position where a trigger and a capture match, and fails only when they match nowhere |
| Patterns.QuieroCapture | index.js:98 | "quiero" followed by one space and a craving of class characters captures the whole craving |
| Patterns.RxBudget | index.js:102-105 | `rxBudget` gives the first run of two to six digits, or "" when no two digits stand side by side |
| Patterns.RxBudgetIsFirstDigitToken | index.js:102-105 | `rxBudget` captures the same digits as the first `/\d{2,6}/` match of the message |
| Patterns.NormalizeCity | index.js:146-154 | the aliases of Mexico City, Guadalajara and Monterrey map to canonical names, blank input maps to "", anything else is returned as given |
| Patterns.CdmxFixed | index.js:149-150 | "Ciudad de México" is not one of its own aliases, so it normalizes to itself |
| Patterns.GuadalajaraFixed | index.js:151 | "Guadalajara" normalizes to itself |
| Patterns.MonterreyFixed | index.js:152 | "Monterrey" normalizes to itself |
| Patterns.NormalizeCityIdempotent | index.js:146-154 | normalizing a normalized city changes nothing |
| Patterns.CuisineSyn | index.js:187-196 | the term gets the patterns of the first of the six families (vegetarian, ramen, sushi, Italian, tacos, burgers) it mentions; the cuisine-tag pattern is absent exactly when no family matches, and then the name pattern is the lower-cased term itself (none for ""); only the vegetarian family sets the diet flag |
| Patterns.FirstFamily | index.js:189-194 | the family chosen is the first whose test the lower-cased term passes |
| Patterns.DietFamilyFirst | index.js:189 | a term with a vegetarian word gets the vegetarian family and the diet flag, whatever else it names |
| Patterns.ScorePatternPresent | index.js:284-287 | the cuisine expression used in scoring exists exactly when a cuisine is wanted |
| Patterns.UnknownCuisineMatchesItself | index.js:195 | for a term without synonyms, a name containing the term matches the scoring expression |
| Places.Truthy | index.js:247-248 | `x \|\| null` on a coordinate keeps it exactly when it is present and non-zero |
| Places.NonEmpty | index.js:240 | `filter(Boolean)` keeps every non-empty string, as many times as it occurs, and only those, in their order, and changes nothing when none is empty |
| Places.Address | index.js:236-240 | the address joins with ", " the non-empty parts among "street number", suburb (else neighbourhood) and city, and is empty exactly when all five address tags are empty |
| Places.AddressFull | index.js:236-240 | with street, number, suburb and city all present the address reads "street number, suburb, city" |
| Places.Cuisines | index.js:244 | the cuisines are the ";"-pieces of the tag, trimmed, with blanks dropped, in order: each non-empty, trimmed and free of ';' |
| Places.CuisinesJoin | index.js:244 | a tag whose pieces are all non-empty and trimmed is restored by joining its cuisines with ";" |
| Places.SingleCuisine | index.js:244 | a tag without ';' gives its trimmed self, or nothing when blank |
| Places.ToPlace | index.js:233-252 | the place's id, name, amenity, cuisines, address, tags and contact flag come from the element; a node's coordinates are its own, any other element's are its centre's, each kept only when non-zero |
| Places.DedupeFromKeys | index.js:254-261 | filtering against a seen-set keeps a subsequence with distinct keys, covering exactly the unseen keys |
| Places.DedupeFromDistinct | index.js:254-261 | a list whose keys are distinct and unseen passes through unchanged |
| Places.Dedupe | index.js:254-261 | `dedupe` keeps a subsequence of the places with pairwise distinct name-and-address keys and loses no key |
| Places.DedupeIdempotent | index.js:254-261 | de-duplicating twice is de-duplicating once |
| Places.DedupeFromAppend | index.js:254-261 | de-duplicating a concatenation handles the second part against the keys of the first |
| Places.DedupeKeepsFirst | index.js:254-261 | `dedupe` equals an independent definition that keeps each place whose key no earlier place has |
| Places.CuisinePoints | index.js:284-291 | the cuisine bonus is 0 to 5, and 0 when no cuisine is wanted |
| Places.NamePoints | index.js:282-292 | the bonuses read off the name and cuisines total 0 to 9 |
| Places.AmenityPoints | index.js:279-298 | a restaurant earns exactly 3; any other amenity earns the fast-food adjustment; the result lies between -5 and 3 |
| Places.ScoreQuality | index.js:274-300 | the score is -999 exactly for an unnamed place or a chain, otherwise between -5 and 16, and at most 8 for fast food when street food is not wanted |
| Places.ChainRule | index.js:263-265 | a chain name anywhere in the name, in any case, makes a chain whatever the tags; an unnamed place is never one |
| Places.BrandRule | index.js:263-268 | for a named place, a brand tag makes a chain whatever the name says, and with no chain phrase and no brand tag the answer is false |
| Places.FastFoodPoints | index.js:294-298 | only fast food is adjusted: by -5 when street food is not wanted, else by +2 for a taco-like name and -2 for any other |
| Places.CuisinePointsSplit | index.js:284-291 | the cuisine bonus is 3 when the name matches `cuisineRe \|\| nameRe` plus 2 when some cuisine tag does |
| Places.NameWorth | index.js:281-292 | between places that differ only in their names, the scores differ by 1 per wine-bar match, 3 per fine-dining match and 3 per match of the wanted cuisine |
| Places.CuisineTagsWorth | index.js:282-290 | between places that differ only in their cuisine tags, having tags is worth 2 and a tag matching the wanted cuisine 2 more |
| Places.ScoreSum | index.js:278-298 | the score of a named non-chain place is exactly 3 for a restaurant + 2 for cuisine tags + 2 for a contact + 1 for wine-bar words + 3 for a name and 2 for a tag matching the wanted cuisine + 3 for fine-dining words + the fast-food adjustment |
| Places.ScoreBase | index.js:274-299 | a named non-chain place that is neither restaurant nor fast food, with no tags, no contact and no passing name test, scores exactly 0 |
| Places.AmenityAdjustment | index.js:279-298 | against a cafe, a restaurant earns 3 more, and fast food earns 5 less, or 2 more or less for street food by its name |
| Places.ContactBonus | index.js:281 | a contact channel is worth exactly 2 points |
| Search.CityZoneQuery | index.js:170 | the geocoder is asked for the city, or "zone, city" when a zone is given |
| Search.GeocodeCityZone | index.js:169-176 | one question, and a second one with the canonical city name exactly when the first answer came back without both coordinates or as a country and the canonical name differs; a usable first answer is kept |
| Search.NoRetryAfterNormalize | index.js:430 | the handler passes an already normalized city, so geocoding always asks one question |
| Search.Around | index.js:199 | the radius sent is clamped to 700..6000 metres |
| Search.StartRadius | index.js:305 | the first radius is 1500 with a zone, else 2500 for street food, else 3500 |
| Search.Widened | index.js:308 | the widened radius is 2500 more, or 6000 when that would pass 6000 |
| Search.ToPlaces | index.js:312 | each element is converted in place |
| Search.ScoreAll | index.js:313 | each place is scored in place |
| Search.AboveTwo | index.js:314 | the filter keeps exactly the places scored above 2, each as many times as it occurs, in their order |
| Search.Candidates | index.js:312-314 | a scored place is a candidate exactly when it is a de-duplicated converted element scored above 2, and candidates keep the order of the elements |
| Search.ScoredMembers | index.js:313 | the scored list holds each place with its own score and nothing else |
| Search.TopNine | index.js:315-317 | min(9, n) candidates in non-increasing score order, and no candidate left out outscores one kept |
| Search.TopNineTies | index.js:315-317 | among candidates of equal score, those kept are the first ones in candidate order |
| Seqs.TopTies | db.js:33-34 | sort-then-slice keeps, of the elements of one rank, the first ones in input order |
| Search.Shortlist | index.js:312-317 | the shortlist is min(9, n) of the candidates, none more often than it occurs among them, best first, no candidate left out outscores one kept, and of each score the candidates kept are the first ones in candidate order; each shown place is named, no chain, and scored above 2 |
| Search.CandidateShown | index.js:275-276 | a candidate is named and not a chain |
| Search.AskMap | index.js:302-310 | the map service is asked once at the clamped start radius with the term's synonyms, and once more at the widened radius exactly when the first answer is empty |
| Search.SearchPlaces | index.js:302-318 | the search fails exactly when its last query fails; otherwise it answers min(9, n) of the candidates made from the last query's answer, none repeated beyond its count there, best first, none left out outscoring one kept, ties kept in candidate order |
| Search.Ranked | index.js:312-317 | a failed query fails the ranking; an answer is ranked into min(9, n) of its candidates, none repeated beyond its count there, none left out outscoring one kept, ties kept in candidate order |
| Search.SearchRadii | index.js:305-308 | the two radii are 1500/4000, 2500/5000 or 3500/6000 metres |
| Turn.SlotName | index.js:467 | `next_slot` is "" exactly when no slot is asked for, and names the slot otherwise |
| Turn.Ask | index.js:327-336 | every slot has a non-empty question |
| Turn.AskFor | index.js:459-461 | the follow-up is "" exactly when no slot is asked for |
| Turn.AskInjective | index.js:327-336 | different slots get different questions in either language |
| Turn.Decide | index.js:378-468 | the cascade's reply and next slot for every case: reset, then greeting, missing city, missing cuisine unless surprised, unplaceable pin (zone), no results (cuisine with a zone, else zone), and the list with the slot after options |
| Turn.AfterOptions | index.js:459-461 | after a list the zone is asked exactly when missing, the budget exactly when the zone is set and the budget missing, else nothing |
| Turn.FollowUp | index.js:459-461 | the follow-up after a list is the question for the slot chosen after options |
| Turn.FollowUpNamesItsSlot | index.js:467 | reading `next_slot` back from the follow-up text names the slot the follow-up asks for |
| Turn.OptionsReply | index.js:458-468 | the list reply, with `next_slot` read back from the follow-up text, is the reply the cascade prescribes for a list |
| Turn.BodyUpdate | index.js:391-394 | the first update carries all four keys, each the value of the body's `slots` object when it has the key, else the body field |
| Turn.TurnMerge | index.js:391-396 | each slot ends as the trimmed language-model value when it gives one, else the trimmed body value, the budget cut to digits; the time is stamped and the other session fields kept |
| Turn.TurnIgnoresStoredSlots | index.js:391-396 | the slots after a turn's merges do not depend on the slots stored before it |
| Turn.TurnForgetsUnsupplied | index.js:391-396 | a city that neither the body nor the language model supplies ends the turn empty, whatever was stored |
| Turn.Listed | index.js:449-468 | a failed search is a technical error; no result nudges and asks for zone or cuisine; results are listed with the follow-up after options |
| Turn.Geolocated | index.js:430-468 | a pin without both coordinates asks for the zone; a listed answer comes from a placed pin and holds one to nine places |
| Turn.Locate | index.js:410-468 | no city asks for the city; the turn fails only after the city and cuisine (or surprise) are settled |
| Turn.Respond | index.js:378-408 | a reset request resets the session and answers the reset reply, asking for the city; otherwise the stored slots are the body's update merged first and the language model's update merged second, and the pending question is kept; an idle or greeted turn stamps `greetedAt` and greets, asking for the city; any other turn keeps `greetedAt` and answers with `Locate` on the merged slots |
| Turn.HandleTurn | index.js:360-477 | a missing user id is a 400 that leaves the store alone; otherwise only this user's session changes, its language is detected from the message (or username), and the reply's follow-up and `next_slot` agree; after a non-reset turn the stored slots are the two merges applied to the stored session's slots, the pending question is kept, and `greetedAt` changes only on a greeting; a reset stores the reset session with the detected language |
| Turn.LocateFollowsDecide | index.js:410-476 | once slots are settled, the reply and `next_slot` are the cascade's choice from the services' answers, and the turn fails exactly when a service it reaches fails |
| Turn.HandleFollowsDecide | index.js:370-468 | every answered turn's reply and `next_slot` are the cascade's choice from reset, silence, greeting, slots, surprise, pin and results |
| Turn.FirstTurnGreets | index.js:374-407 | a user's first turn is greeted and asked for the city, since a new session was last active at time 0 |
| Prestige.Qualifying | db.js:26-32 | the reference list holds exactly the catalogue entries with both coordinates, within the radius and serving the cuisine, each with its distance |
| Prestige.WithCoordinates | db.js:26 | the first filter keeps exactly the entries with both coordinates present and non-zero |
| Prestige.Measure | db.js:27-30 | each entry is paired with its own distance from the point |
| Prestige.Within | db.js:31 | the radius filter keeps exactly the rows at most the radius away |
| Prestige.Serving | db.js:32 | the cuisine filter keeps every row for an empty wish, else the rows whose lower-cased cuisine contains it |
| Prestige.CandidatesQualify | db.js:24-32 | the chain of filters and the map equals the one-pass reference list, order included |
| Prestige.ByPrestigeOrder | db.js:33 | one row comes before another exactly when it is more prestigious (a missing prestige is 0), or equally prestigious and nearer |
| Prestige.FindTopByPrestige | db.js:23-37 | the answer is exactly the first `limit` rows of the qualifying entries stably sorted by prestige then nearness (radius 5 km and limit 9 by default): min(limit, n) rows, each an input entry with its own distance |
| Prestige.TopByPrestige | db.js:33-34 | a qualifying entry left out is neither more prestigious than a listed one nor as prestigious and nearer |
| Prestige.TiesKeepCatalogueOrder | db.js:33 | entries of equal prestige and distance keep their catalogue order |

## Left out

- The Express server, request parsing and the JSON response encoding are not modelled. The handler is one function from the store, the body, the clock and the oracles to the new store and a `Response`.
- The language-model call (`extractNLU`, index.js:108-140) is an oracle parameter from the message and slots to an update. Its prompt, its HTTP call and its regex fallback are left out.
- The geocoder and the map service are oracle parameters. Their URLs, headers, query text and JSON decoding are left out. Any failure of theirs is `Threw`, which the handler answers with its 500 reply.
- `Date.now()` is the `now` parameter of a turn. The session map is a value threaded through turns. Concurrent requests sharing it are not modelled.
- Reply texts other than the follow-up questions are a `ReplyKind`. This covers the greeting, the list message, the nudge and the error texts. Only the follow-up questions are needed to recover `next_slot` from the follow-up text.
- `rxCity` (index.js:75-81) is not modelled. Only the language-model step calls it, to fill in a city the model did not return, and that step is an input here.
- `parseFloat` of the pin's coordinates is left out: the coordinates are passed to the map service as the geocoder returned them.
- The great-circle distance `haversineKm` is a parameter of `Prestige.FindTopByPrestige`, because it is floating-point trigonometry. Loading the catalogue from a JSON file is left out; the catalogue is a parameter.
- Slot values are strings. A non-string truthy value in an update (a number, say) is not modelled. `null`, `undefined`, `false` and `0` behave like "".
- Regular expressions are modelled as searches for literal alternatives in text lower-cased over ASCII and Latin-1. Unicode case folding beyond that is left out: JavaScript's `toLowerCase` also lowers letters such as Ā, Greek and Cyrillic capitals and expands İ, which `Text.LowerChar` leaves unchanged.
- Prestige values and distances are reals. JavaScript's NaN and infinities are not modelled.
- Places.CuisinePoints: its contract states the bounds 0 to 5 only. The exact points, 3 for the name and 2 for a tag, are stated by `Places.CuisinePointsSplit`.
- Places.NamePoints: its contract states the bounds 0 to 9 only. What each name feature is worth is stated by `Places.NameWorth` and `Places.CuisineTagsWorth`.
- Places.NameWorth: requires that, for fast food with street food wanted, both names pass or both fail the taco test. When they differ there, the scores also differ by the fast-food adjustment that `Places.FastFoodPoints` states.
- Patterns.QuieroCapture: states the capture for "quiero" followed by exactly one space only. The capture after the other triggers and after longer white space follows from the contracts of `Patterns.CaptureAfter` and `Patterns.Fallback`.
- Turn.HandleTurn: states the stored session of each branch but not the reply for each branch itself. The branch behaviour is stated by `Turn.Respond`, `Turn.Locate` and the lemmas `Turn.HandleFollowsDecide` and `Turn.LocateFollowsDecide`.

=== FILE: optional.dfy ===
/** Optional values and the outcome of a call into an external service. */
module Optional {

  /** A value that may be missing: a JavaScript `null`/`undefined`, or an
      object key that is not there. */
  datatype Option<T> = None | Some(value: T) {
    function GetOr(default: T): T {
      match this
      case Some(v) => v
      case None => default
    }
  }

  /** The outcome of an awaited network call: its value, or an exception
      (network failure, a rejected status, a malformed payload). */
  datatype Fetch<T> = Done(value: T) | Threw
}

=== FILE: patterns.dfy ===
/** The lexical layer of the engine (index.js:58-105, 146-154, 179-196,
    270-272): language detection, the greeting, reset and surprise tests, the
    cuisine and budget extractors, the city alias table, the cuisine synonym
    expansion and the name lexicons used in ranking.

    Each regular expression of index.js is an alternation of phrases tested
    case-insensitively. A phrase is a list of words that may be separated by
    any white space, which is how index.js writes `a\s*b`; as every word
    after the first starts with a non-space character, skipping all the white
    space between two words is the only way such a phrase can match. */
module Patterns {
  import opened Text
  import opened Optional

  /** Words that may be separated by white space (`\s*`). */
  type Phrase = seq<string>

  /** An alternation of phrases, `(p1|p2|...)`. The empty alternation stands
      for the empty pattern string of index.js, which it never tests. */
  type Pattern = seq<Phrase>

  /** Phrase `ph` occurs in `s` from position `i`. */
  predicate PhraseAt(s: string, i: nat, ph: Phrase)
    decreases |ph|
  {
    ph == [] || (At(s, i, ph[0]) && PhraseAt(s, SkipSpace(s, i + |ph[0]|), ph[1..]))
  }

  /** `pat.test(s)` with the `i` flag. */
  predicate Matches(s: string, pat: Pattern) {
    exists k, i :: 0 <= k < |pat| && 0 <= i <= |s| && PhraseAt(Lower(s), i, pat[k])
  }

  /** An alternation of single words. */
  function Words(ws: seq<string>): (pat: Pattern)
    ensures |pat| == |ws|
    ensures forall k :: 0 <= k < |ws| ==> pat[k] == [ws[k]]
  {
    seq(|ws|, k requires 0 <= k < |ws| => [ws[k]])
  }

  /** An alternation of words matches exactly when one of its words occurs
      somewhere in the lower-cased text. */
  lemma MatchesWords(s: string, ws: seq<string>)
    ensures Matches(s, Words(ws)) <==>
      exists j, i :: 0 <= j < |ws| && 0 <= i <= |s| && At(Lower(s), i, ws[j])
  {
    var low := Lower(s);
    if Matches(s, Words(ws)) {
      var k, i :| 0 <= k < |ws| && 0 <= i <= |s| && PhraseAt(low, i, Words(ws)[k]);
      assert At(low, i, ws[k]);
    }
    if exists j, i :: 0 <= j < |ws| && 0 <= i <= |s| && At(low, i, ws[j]) {
      var j, i :| 0 <= j < |ws| && 0 <= i <= |s| && At(low, i, ws[j]);
      assert PhraseAt(low, i, Words(ws)[j]);
    }
  }

  // ---------------------------------------------------------------------
  // Language (index.js:59-68)

  /** Characters that mark a message as Spanish: /[áéíóúñü¿¡]/. */
  predicate SpanishMark(c: char) {
    c == 'á' || c == 'é' || c == 'í' || c == 'ó' || c == 'ú' || c == 'ñ' || c == 'ü'
    || c == '¿' || c == '¡'
  }

  const SpanishWords: Pattern :=
    Words(["hola", "buenas", "ciudad", "zona", "antojo", "presupuesto", "cdmx", "méxico", "mexico"])

  /** `detectLang`: Spanish on a Spanish character or keyword, else English. */
  function DetectLang(text: string): (r: string)
    ensures r == "es" || r == "en"
    ensures r == "es" <==>
      (exists k :: 0 <= k < |text| && SpanishMark(LowerChar(text[k]))) || Matches(text, SpanishWords)
  {
    var t := Lower(text);
    if exists k :: 0 <= k < |t| && SpanishMark(t[k]) then "es"
    else if Matches(t, SpanishWords) then
      assert Lower(t) == t by {
        forall k | 0 <= k < |t| ensures Lower(t)[k] == t[k] {
          assert LowerChar(LowerChar(text[k])) == LowerChar(text[k]);
        }
      }
      "es"
    else
      assert Lower(t) == t by {
        forall k | 0 <= k < |t| ensures Lower(t)[k] == t[k] {
          assert LowerChar(LowerChar(text[k])) == LowerChar(text[k]);
        }
      }
      "en"
  }

  /** `useLang(current, message)`: since detection always answers, the
      current language and the default are never consulted. */
  function UseLang(current: string, message: string): (r: string)
    ensures r == DetectLang(message)
  {
    Or(Or(DetectLang(message), current), "es")
  }

  // ---------------------------------------------------------------------
  // Greeting, reset and surprise (index.js:71-73)

  /** The regular-expression word characters `[A-Za-z0-9_]`. */
  predicate IsWordChar(c: char) {
    'a' <= c <= 'z' || 'A' <= c <= 'Z' || '0' <= c <= '9' || c == '_'
  }

  /** `w` occurs at `i` between two word boundaries `\b`. */
  predicate WholeWordAt(s: string, i: nat, w: string) {
    && At(s, i, w)
    && (i == 0 || !IsWordChar(s[i - 1]))
    && (i + |w| == |s| || !IsWordChar(s[i + |w|]))
  }

  const GreetWords: seq<string> := ["hola", "qué onda", "buenas", "hello", "hi", "hey"]

  /** GREET_RE: a greeting word standing on its own. */
  predicate IsGreeting(msg: string) {
    exists k, i :: 0 <= k < |GreetWords| && 0 <= i <= |msg| && WholeWordAt(Lower(msg), i, GreetWords[k])
  }

  const ResetWords: seq<string> := ["olvida", "reinicia", "empecemos de nuevo", "reset"]

  /** RESET_RE. */
  predicate IsResetRequest(msg: string) {
    Matches(msg, Words(ResetWords))
  }

  /** A greeting word counts only between word boundaries: "hi" alone greets,
      the "hi" inside "this" does not. */
  lemma GreetingWholeWord()
    ensures IsGreeting("hi")
    ensures !IsGreeting("this")
  {
    assert WholeWordAt(Lower("hi"), 0, GreetWords[4]);
    var t := Lower("this");
    assert t == "this";
    forall k, i | 0 <= k < |GreetWords| && 0 <= i <= |t| ensures !WholeWordAt(t, i, GreetWords[k]) {
      if i == 1 && k == 4 {
        assert IsWordChar(t[0]);
      }
    }
  }

  /** A reset word anywhere in the message, in any letter case, asks for a
      reset, even inside a longer word; and nothing else does. */
  lemma ResetAnywhere(msg: string)
    ensures IsResetRequest(msg) <==>
      exists j, i :: 0 <= j < |ResetWords| && 0 <= i <= |msg| && At(Lower(msg), i, ResetWords[j])
  {
    MatchesWords(msg, ResetWords);
  }

  /** WANT_SURPRISE_RE with its character classes spelled out. The class
      `[a|ame]` after "recom[ií]end" is a set of four characters, not the
      alternation "a" or "ame"; and the accent alternative sits on the `i`,
      so the accented imperative "recomiéndame" is not among the spellings. */
  const SurprisePattern: Pattern := Words([
    "sorprendeme", "sorpréndeme",
    "recomienda", "recomiend|", "recomiendm", "recomiende",
    "recomíenda", "recomíend|", "recomíendm", "recomíende",
    "lo que tu sugieras", "lo que tú sugieras"])

  predicate WantsSurprise(msg: string) {
    Matches(msg, SurprisePattern)
  }

  // ---------------------------------------------------------------------
  // Cuisine extraction (index.js:83-100)

  /** One row of the synonym table: the pattern and the canonical value. */
  datatype CuisineRow = CuisineRow(pat: Pattern, value: string)

  const CuisineTable: seq<CuisineRow> := [
    CuisineRow(Words(["ramen", "noodle"]), "ramen"),
    CuisineRow(Words(["sushi", "omakase", "izakaya"]), "sushi"),
    CuisineRow(Words(["pizza", "trattoria", "pasta", "italian", "italiana", "osteria"]), "italiana"),
    CuisineRow(Words(["taco", "pastor", "birria", "barbacoa", "taquer"]), "tacos"),
    CuisineRow(Words(["vegetaria", "vegetario", "vegan"]), "vegetariana"),
    CuisineRow(Words(["marisco", "sea food", "seafood"]), "mariscos"),
    CuisineRow(Words(["burger", "burguesa", "hamburg"]), "hamburguesa"),
    CuisineRow(Words(["japonesa", "comida japonesa"]), "japonesa"),
    CuisineRow(Words(["china", "comida china"]), "china"),
    CuisineRow(Words(["mexicana", "comida mexicana"]), "mexicana"),
    CuisineRow(Words(["comida callejera", "street food"]), "street food")
  ]

  /** The first row from `k` on whose pattern the message matches. */
  function FirstRow(msg: string, k: nat): (r: nat)
    requires k <= |CuisineTable|
    ensures k <= r <= |CuisineTable|
    ensures r < |CuisineTable| ==> Matches(msg, CuisineTable[r].pat)
    ensures forall j :: k <= j < r ==> !Matches(msg, CuisineTable[j].pat)
    decreases |CuisineTable| - k
  {
    if k == |CuisineTable| then k
    else if Matches(msg, CuisineTable[k].pat) then k
    else FirstRow(msg, k + 1)
  }

  /** The character class `[a-záéíóúüñ .'-]` under the `i` flag. */
  predicate InCaptureClass(c: char) {
    || 'a' <= c <= 'z' || 'A' <= c <= 'Z'
    || c == 'á' || c == 'é' || c == 'í' || c == 'ó' || c == 'ú' || c == 'ü' || c == 'ñ'
    || c == 'Á' || c == 'É' || c == 'Í' || c == 'Ó' || c == 'Ú' || c == 'Ü' || c == 'Ñ'
    || c == ' ' || c == '.' || c == '\'' || c == '-'
  }

  /** Words separated by at least one white-space character (`\s+`); the end
      position of the match when the words occur from `i`. */
  function SpacedWordsEnd(s: string, i: nat, ws: seq<string>): (e: nat)
    requires i <= |s|
    ensures i <= e <= |s|
    decreases |ws|
  {
    if ws == [] then i
    else if !At(s, i, ws[0]) then i
    else if |ws| == 1 then i + |ws[0]|
    else
      var j := i + |ws[0]|;
      var e := SkipSpace(s, j);
      if e == j then i else SpacedWordsEnd(s, e, ws[1..])
  }

  predicate SpacedWordsAt(s: string, i: nat, ws: seq<string>)
    requires i <= |s|
    decreases |ws|
  {
    ws == [] || (At(s, i, ws[0]) && (|ws| == 1 ||
      (var j := i + |ws[0]|; var e := SkipSpace(s, j); e > j && SpacedWordsAt(s, e, ws[1..]))))
  }

  /** The craving triggers `tengo\s+antojo\s+de`, `se\s+me\s+antoja`, `quiero`. */
  const Triggers: seq<seq<string>> := [["tengo", "antojo", "de"], ["se", "me", "antoja"], ["quiero"]]

  /** The maximal run of class characters from `c`. */
  function ClassRun(s: string, c: nat): (r: string)
    requires c <= |s|
    ensures c + |r| <= |s| && r == s[c..c + |r|]
    ensures forall k :: 0 <= k < |r| ==> InCaptureClass(r[k])
    decreases |s| - c
  {
    if c < |s| && InCaptureClass(s[c]) then [s[c]] + ClassRun(s, c + 1) else []
  }

  /** The run stops at the end of the text or at a character outside the
      class: the `+` is greedy. */
  lemma {:induction false} ClassRunMaximal(s: string, c: nat)
    requires c <= |s|
    ensures c + |ClassRun(s, c)| == |s| || !InCaptureClass(s[c + |ClassRun(s, c)|])
    decreases |s| - c
  {
    if c < |s| && InCaptureClass(s[c]) {
      ClassRunMaximal(s, c + 1);
    }
  }

  /** Where the capture starts once a trigger ends at `j` and the white space
      after it ends at `e`: the greedy `\s+` gives back one character at a
      time until the class can match, and never goes below one. */
  function CaptureStart(s: string, j: nat, c: nat): (r: nat)
    requires j < c <= |s|
    ensures j < r <= c
    ensures r == j + 1 || (r < |s| && InCaptureClass(s[r]))
    ensures forall m :: r < m <= c && m < |s| ==> !InCaptureClass(s[m])
    decreases c - j
  {
    if c < |s| && InCaptureClass(s[c]) then c
    else if c == j + 1 then c
    else CaptureStart(s, j, c - 1)
  }

  /** The text `([a-záéíóúüñ .'-]+)` captures when a trigger ends at `j`,
      or nothing when the rest of the expression fails there. */
  function CaptureAfter(s: string, j: nat): (cap: Option<string>)
    requires j <= |s|
    ensures cap.Some? ==> cap.value != [] && forall k :: 0 <= k < |cap.value| ==> InCaptureClass(cap.value[k])
    ensures var e := SkipSpace(s, j);
      e > j && e < |s| && InCaptureClass(s[e]) ==> cap == Some(ClassRun(s, e))
    ensures var e := SkipSpace(s, j);
      cap.None? <==> forall m :: j < m <= e && m < |s| ==> !InCaptureClass(s[m])
    ensures var e := SkipSpace(s, j);
      cap.Some? ==> exists c ::
        && j < c <= e && c < |s| && InCaptureClass(s[c]) && AllSpace(s[j..c])
        && cap.value == ClassRun(s, c)
        && forall m :: c < m <= e && m < |s| ==> !InCaptureClass(s[m])
  {
    var e := SkipSpace(s, j);
    if e == j then None
    else
      var c := CaptureStart(s, j, e);
      if c < |s| && InCaptureClass(s[c]) then
        assert AllSpace(s[j..c]);
        Some(ClassRun(s, c))
      else None
  }

  /** Where the first of the triggers `ts` that occurs at `i` ends. */
  function TriggerEnd(low: string, i: nat, ts: seq<seq<string>>): (j: Option<nat>)
    requires i <= |low|
    ensures j.Some? ==> j.value <= |low|
    decreases |ts|
  {
    if ts == [] then None
    else if SpacedWordsAt(low, i, ts[0]) then Some(SpacedWordsEnd(low, i, ts[0]))
    else TriggerEnd(low, i, ts[1..])
  }

  /** The fallback expression tried at position `i`: the first trigger that
      occurs there in the lower-cased text `low`, followed by a capture from
      the text itself. */
  function FallbackAt(s: string, low: string, i: nat): (cap: Option<string>)
    requires |low| == |s|
    ensures cap.Some? ==> i <= |s| && cap.value != []
    ensures cap.Some? ==> forall k :: 0 <= k < |cap.value| ==> InCaptureClass(cap.value[k])
  {
    if i > |s| then None
    else match TriggerEnd(low, i, Triggers)
      case Some(j) => CaptureAfter(s, j)
      case None => None
  }

  /** The first answer of `f` at positions `i` to `n`: how a regular
      expression without the `g` flag scans its text from left to right. */
  function Leftmost<T>(f: nat -> Option<T>, i: nat, n: nat): (r: Option<T>)
    ensures r.Some? ==> exists p :: i <= p <= n && f(p) == r && forall m :: i <= m < p ==> f(m).None?
    ensures r.None? ==> forall m :: i <= m <= n ==> f(m).None?
    decreases n + 1 - i
  {
    if i > n then None
    else match f(i)
      case Some(v) => Some(v)
      case None => Leftmost(f, i + 1, n)
  }

  /** The fallback expression of `rxCuisine` on `s`, whose lower-cased text
      is `low`: the capture at the leftmost position where a trigger and a
      capture match, and nothing only when they match nowhere. */
  function Fallback(s: string, low: string): (cap: Option<string>)
    requires |low| == |s|
    ensures cap.Some? ==> exists p: nat :: p <= |s| && FallbackAt(s, low, p) == cap
                                        && forall m: nat :: m < p ==> FallbackAt(s, low, m).None?
    ensures cap.None? ==> forall m: nat :: FallbackAt(s, low, m).None?
  {
    var f := (p: nat) => FallbackAt(s, low, p);
    assert forall m: nat :: f(m) == FallbackAt(s, low, m);
    Leftmost(f, 0, |s|)
  }

  /** Trimming a run of class characters leaves class characters. */
  lemma TrimKeepsClass(c: string)
    requires forall k :: 0 <= k < |c| ==> InCaptureClass(c[k])
    ensures forall k :: 0 <= k < |Trim(c)| ==> InCaptureClass(Trim(c)[k])
  {
    TrimInfix(c);
  }

  /** The craving `rxCuisine` falls back on: the trimmed capture of the
      fallback expression, or "" when it matches nowhere. */
  function Craving(s: string, low: string): (r: string)
    requires |low| == |s|
    ensures Trimmed(r)
    ensures forall k :: 0 <= k < |r| ==> InCaptureClass(r[k])
    ensures Fallback(s, low).None? ==> r == []
    ensures Fallback(s, low).Some? ==> r == Trim(Fallback(s, low).value)
  {
    var cap := Fallback(s, low);
    if cap.Some? then
      TrimKeepsClass(cap.value);
      Trim(cap.value)
    else []
  }

  /** A run over class characters up to the end of the text takes them all. */
  lemma {:induction false} ClassRunAll(s: string, c: nat)
    requires c <= |s|
    requires forall k :: c <= k < |s| ==> InCaptureClass(s[k])
    ensures ClassRun(s, c) == s[c..]
    decreases |s| - c
  {
    if c < |s| {
      ClassRunAll(s, c + 1);
      assert s[c..] == [s[c]] + s[c + 1..];
    }
  }

  /** Lower-casing leaves the trigger "quiero " as it is. */
  lemma QuieroLower(w: string)
    ensures Lower("quiero " + w)[..7] == "quiero "
  {
    var s := "quiero " + w;
    forall k | 0 <= k < 7
      ensures Lower(s)[k] == s[k]
    {
      assert LowerChar(s[k]) == s[k];
    }
  }

  /** A text starting with "q" can only match the last trigger. */
  lemma OnlyQuiero(low: string)
    requires |low| >= 1 && low[0] == 'q'
    ensures TriggerEnd(low, 0, Triggers) == TriggerEnd(low, 0, [["quiero"]])
  {
    var t := Triggers;
    assert !At(low, 0, t[0][0]) by { assert low[0] != t[0][0][0]; }
    assert !At(low, 0, t[1][0]) by { assert low[0] != t[1][0][0]; }
    assert t[2..] == [["quiero"]];
  }

  /** Of the triggers, only "quiero" occurs at the start of "quiero ...". */
  lemma QuieroTrigger(low: string)
    requires |low| >= 7 && low[..7] == "quiero "
    ensures TriggerEnd(low, 0, Triggers) == Some(6)
  {
    assert low[0] == low[..7][0] == 'q';
    OnlyQuiero(low);
    var ts: seq<seq<string>> := [["quiero"]];
    assert At(low, 0, ts[0][0]) by {
      assert low[0..6] == low[..7][..6];
      assert "quiero "[..6] == "quiero";
    }
    assert SpacedWordsAt(low, 0, ts[0]);
    assert SpacedWordsEnd(low, 0, ts[0]) == 6;
  }

  /** After "quiero" and one space, a craving of class characters is captured
      whole. */
  lemma QuieroAfter(w: string)
    requires w != [] && !IsSpace(w[0])
    requires forall k :: 0 <= k < |w| ==> InCaptureClass(w[k])
    ensures CaptureAfter("quiero " + w, 6) == Some(w)
  {
    var s := "quiero " + w;
    assert s[7] == w[0];
    assert SkipSpace(s, 7) == 7;
    assert SkipSpace(s, 6) == 7;
    assert CaptureStart(s, 6, 7) == 7;
    ClassRunAll(s, 7);
    assert s[7..] == w;
  }

  /** "quiero" followed by one space and a craving made of class characters:
      the fallback captures the craving whole. */
  lemma QuieroCapture(w: string)
    requires w != [] && !IsSpace(w[0])
    requires forall k :: 0 <= k < |w| ==> InCaptureClass(w[k])
    ensures Fallback("quiero " + w, Lower("quiero " + w)) == Some(w)
  {
    var s := "quiero " + w;
    QuieroLower(w);
    QuieroTrigger(Lower(s));
    QuieroAfter(w);
    assert FallbackAt(s, Lower(s), 0) == Some(w);
  }

  /** `rxCuisine`: the canonical value of the first synonym row the message
      matches; failing that, the trimmed craving after "tengo antojo de",
      "se me antoja" or "quiero"; failing that, "". */
  function RxCuisine(msg: string): (r: string)
    ensures var k := FirstRow(msg, 0);
      k < |CuisineTable| ==> r == CuisineTable[k].value
    ensures FirstRow(msg, 0) == |CuisineTable| ==>
      && r == Craving(msg, Lower(msg))
      && Trimmed(r)
      && (forall k :: 0 <= k < |r| ==> InCaptureClass(r[k]))
      && (Fallback(msg, Lower(msg)).None? ==> r == [])
      && (Fallback(msg, Lower(msg)).Some? ==> r == Trim(Fallback(msg, Lower(msg)).value))
  {
    var k := FirstRow(msg, 0);
    if k < |CuisineTable| then CuisineTable[k].value else Craving(msg, Lower(msg))
  }

  // ---------------------------------------------------------------------
  // Budget extraction (index.js:102-105)

  /** Where `\$?\s?` may leave the digits when the expression is tried at
      `i`, in the order the engine backtracks through them; the first that
      starts two digits wins. */
  function BudgetDigitsAt(s: string, i: nat): (j: Option<nat>)
    requires i <= |s|
    ensures j.Some? ==> i <= j.value <= i + 2 && DigitPairAt(s, j.value)
    ensures j.Some? ==> forall k :: i <= k < j.value ==> !IsDigit(s[k])
    ensures DigitPairAt(s, i) ==> j == Some(i)
  {
    var dollar := i < |s| && s[i] == '$';
    if dollar && i + 1 < |s| && IsSpace(s[i + 1]) && DigitPairAt(s, i + 2) then Some(i + 2)
    else if dollar && DigitPairAt(s, i + 1) then Some(i + 1)
    else if !dollar && i < |s| && IsSpace(s[i]) && DigitPairAt(s, i + 1) then Some(i + 1)
    else if !dollar && DigitPairAt(s, i) then Some(i)
    else None
  }

  function RxBudgetFrom(s: string, i: nat): string
    requires i <= |s|
    decreases |s| - i
  {
    match BudgetDigitsAt(s, i)
    case Some(j) => TokenAt(s, j)
    case None => if i == |s| then [] else RxBudgetFrom(s, i + 1)
  }

  /** `rxBudget`: the capture group of /\$?\s?(\d{2,6})\s*(mxn|pesos|usd)?/i.
      The trailing currency part is optional and never makes a match fail. */
  function RxBudget(msg: string): (r: string)
    ensures r == FirstDigitToken(msg)
    ensures r == [] || IsDigitToken(r)
  {
    RxBudgetIsFirstDigitToken(msg);
    FirstDigitTokenShape(msg);
    RxBudgetFrom(msg, 0)
  }

  lemma {:induction false} RxBudgetFromPair(s: string, i: nat, p: nat)
    requires i <= p && DigitPairAt(s, p)
    requires forall j: nat :: j < p ==> !DigitPairAt(s, j)
    ensures RxBudgetFrom(s, i) == TokenAt(s, p)
    decreases p - i
  {
    match BudgetDigitsAt(s, i)
    case Some(j) =>
      assert j == p;
    case None =>
      assert i != p;
      RxBudgetFromPair(s, i + 1, p);
  }

  lemma {:induction false} RxBudgetFromNone(s: string, i: nat)
    requires i <= |s|
    requires forall j: nat :: !DigitPairAt(s, j)
    ensures RxBudgetFrom(s, i) == []
    decreases |s| - i
  {
    if i < |s| {
      RxBudgetFromNone(s, i + 1);
    }
  }

  /** The budget extractor and the slot store's budget cut agree: the optional
      currency sign and space never move the captured digits away from the
      leftmost pair of digits. */
  lemma RxBudgetIsFirstDigitToken(msg: string)
    ensures RxBudgetFrom(msg, 0) == FirstDigitToken(msg)
  {
    if forall j: nat :: !DigitPairAt(msg, j) {
      RxBudgetFromNone(msg, 0);
      FirstDigitTokenEmpty(msg);
    } else {
      var q: nat :| DigitPairAt(msg, q);
      var p := LeftmostPair(msg, q);
      RxBudgetFromPair(msg, 0, p);
      FirstDigitTokenAt(msg, p);
    }
  }

  // ---------------------------------------------------------------------
  // City aliases (index.js:146-154)

  const CDMX := "Ciudad de México"

  /** `normalizeCity`: the canonical name of an alias, "" for a blank input,
      and the input itself otherwise. */
  function NormalizeCity(c: string): (r: string)
    ensures var key := Trim(Lower(c));
      && (key == [] ==> r == [])
      && (key in {"mx", "méxico", "mexico", "cdmx", "ciudad de mexico", "mexico city"} ==> r == CDMX)
      && (key == "gdl" ==> r == "Guadalajara")
      && (key == "mty" ==> r == "Monterrey")
      && (key !in {"", "mx", "méxico", "mexico", "cdmx", "ciudad de mexico", "mexico city", "gdl", "mty"} ==> r == c)
  {
    var s := Trim(Lower(c));
    if s == [] then []
    else if s == "mx" || s == "méxico" || s == "mexico" then CDMX
    else if s == "cdmx" || s == "ciudad de mexico" || s == "mexico city" then CDMX
    else if s == "gdl" then "Guadalajara"
    else if s == "mty" then "Monterrey"
    else c
  }

  /** "Ciudad de México" normalizes to itself: the accent keeps its key
      "ciudad de méxico" apart from the alias "ciudad de mexico". */
  lemma CdmxFixed()
    ensures NormalizeCity(CDMX) == CDMX
  {
    var l := Lower(CDMX);
    assert Trim(l) == l by {
      assert |l| == 16 && l[0] == 'c' && l[15] == 'o';
      TrimIdentity(l);
    }
    assert |l| == 16 && l[11] == 'é';
    assert l != "ciudad de mexico" by { assert "ciudad de mexico"[11] == 'e'; }
  }

  lemma GuadalajaraFixed()
    ensures NormalizeCity("Guadalajara") == "Guadalajara"
  {
    var g := Lower("Guadalajara");
    assert Trim(g) == g by {
      assert |g| == 11 && g[0] == 'g' && g[10] == 'a';
      TrimIdentity(g);
    }
    assert |g| == 11 && g[0] == 'g';
  }

  lemma MonterreyFixed()
    ensures NormalizeCity("Monterrey") == "Monterrey"
  {
    var m := Lower("Monterrey");
    assert Trim(m) == m by {
      assert |m| == 9 && m[0] == 'm' && m[8] == 'y';
      TrimIdentity(m);
    }
    assert |m| == 9;
  }

  /** Normalizing a normalized city changes nothing. */
  lemma NormalizeCityIdempotent(c: string)
    ensures NormalizeCity(NormalizeCity(c)) == NormalizeCity(c)
  {
    CdmxFixed();
    GuadalajaraFixed();
    MonterreyFixed();
  }

  // ---------------------------------------------------------------------
  // Cuisine synonyms for the live search (index.js:187-196)

  /** The name pattern, cuisine-tag pattern and diet flag of a cuisine. */
  datatype Synonyms = Synonyms(nameRe: Pattern, cuisineRe: Pattern, diet: bool)

  /** A cuisine family: the test on the term and the patterns it expands to. */
  datatype Family = Family(test: Pattern, syn: Synonyms)

  /** The families in the order `cuisineSyn` tries them. */
  const Families: seq<Family> := [
    Family(Words(["vegetari", "vegan"]),
           Synonyms(Words(["veg", "vegetari", "vegan"]), Words(["vegetarian", "vegan"]), true)),
    Family(Words(["ramen"]),
           Synonyms(Words(["ramen", "noodle", "izakaya", "japanese"]), Words(["ramen", "noodle", "japanese"]), false)),
    Family(Words(["sushi"]),
           Synonyms(Words(["sushi", "izakaya", "omakase"]), Words(["sushi", "japanese", "omakase"]), false)),
    Family(Words(["pizza", "italian", "italiana", "trattoria", "pasta", "osteria"]),
           Synonyms(Words(["pizza", "trattoria", "italian", "pasta", "osteria"]),
                    Words(["pizza", "italian", "pasta", "trattoria", "osteria"]), false)),
    Family(Words(["taco", "pastor", "birria", "barbacoa", "taquer"]),
           Synonyms(Words(["taco", "taquer", "pastor", "birria", "barbacoa"]),
                    Words(["mexican", "taco", "pastor", "birria", "barbacoa"]), false)),
    Family(Words(["burger", "hamburg"]),
           Synonyms(Words(["burger", "hamburg"]), Words(["burger", "hamburg", "american"]), false))
  ]

  /** The first family from `k` on whose test the term passes. */
  function FirstFamily(term: string, k: nat): (r: nat)
    requires k <= |Families|
    ensures k <= r <= |Families|
    ensures r < |Families| ==> Matches(term, Families[r].test)
    ensures forall j :: k <= j < r ==> !Matches(term, Families[j].test)
    decreases |Families| - k
  {
    if k == |Families| then k
    else if Matches(term, Families[k].test) then k
    else FirstFamily(term, k + 1)
  }

  /** `cuisineSyn`: the patterns of the first family the lower-cased term
      mentions; an unknown term becomes a literal pattern of itself and no
      cuisine-tag pattern, and only the vegetarian family sets the diet flag. */
  function CuisineSyn(term: string): (r: Synonyms)
    ensures var k := FirstFamily(term, 0);
      k < |Families| ==> r == Families[k].syn
    ensures FirstFamily(term, 0) == |Families| ==>
      r == Synonyms(if term == [] then [] else [[Lower(term)]], [], false)
    ensures r.cuisineRe == [] <==> FirstFamily(term, 0) == |Families|
    ensures r.diet <==> Matches(term, Families[0].test)
  {
    var k := FirstFamily(term, 0);
    if k < |Families| then Families[k].syn
    else
      var t := Lower(term);
      Synonyms(if t == [] then [] else [[t]], [], false)
  }

  /** A term that mentions a vegetarian word gets the vegetarian family,
      whatever other cuisine it names. */
  lemma DietFamilyFirst(term: string)
    requires Matches(term, Words(["vegetari", "vegan"]))
    ensures CuisineSyn(term).diet
    ensures CuisineSyn(term).cuisineRe == Words(["vegetarian", "vegan"])
  {
  }

  /** The pattern the quality score tests: `cuisineRe || nameRe`. */
  function ScorePattern(syn: Synonyms): Pattern {
    if syn.cuisineRe != [] then syn.cuisineRe else syn.nameRe
  }

  /** Every non-empty cuisine yields a pattern to score against, and the
      empty cuisine none. */
  lemma ScorePatternPresent(term: string)
    ensures ScorePattern(CuisineSyn(term)) == [] <==> term == []
  {
  }

  /** An unknown cuisine scores names that contain it. */
  lemma UnknownCuisineMatchesItself(term: string, name: string, i: nat)
    requires CuisineSyn(term).cuisineRe == [] && term != []
    requires At(Lower(name), i, Lower(term))
    ensures Matches(name, ScorePattern(CuisineSyn(term)))
  {
    var pat := ScorePattern(CuisineSyn(term));
    assert pat == [[Lower(term)]];
    assert PhraseAt(Lower(name), i, pat[0]);
  }

  // ---------------------------------------------------------------------
  // Name lexicons used in ranking (index.js:179-185, 282, 295)

  /** CHAIN_RE, one entry per expression of the list. */
  const ChainPattern: Pattern := [
    ["vips"], ["sanborns"], ["toks"], ["starbucks"], ["domino"], ["little", "caesars"],
    ["papa", "john"], ["pizza", "hut"], ["kfc"], ["burger", "king"], ["bk"], ["subway"],
    ["ihop"], ["chilis"], ["chili's"], ["applebees"], ["applebee's"], ["olive", "garden"],
    ["denny"], ["sushi", "roll"], ["wingstop"], ["potzolcalli"], ["farolito"]
  ]

  /** FINE_RE. */
  const FinePattern: Pattern := [
    ["trattoria"], ["osteria"], ["bistro"], ["brasserie"], ["steakhouse"], ["asador"],
    ["omakase"], ["kaiseki"], ["chef"], ["tasting"], ["degustación"], ["degustacion"],
    ["alta", "cocina"], ["fine"], ["gastronom"], ["izakaya"]
  ]

  /** STREET_HINT. */
  const StreetWords: seq<string> := [
    "taco", "birria", "pastor", "barbacoa", "antojito", "garnacha", "marisco", "pozole",
    "tlayuda", "arepa", "empanada"]

  const StreetPattern: Pattern := Words(StreetWords)

  /** The wine-bar bonus expression. */
  const WinePattern: Pattern := [["wine"], ["bar", "a", "vins"], ["enoteca"]]

  /** The taco-like names that redeem a fast-food place. */
  const TacoPattern: Pattern := Words(["taco", "taquer", "birria", "pastor", "barbacoa"])

  /** `wantsStreetFood`. */
  predicate WantsStreetFood(cuisine: string) {
    Matches(cuisine, StreetPattern)
  }

  /** Street food is wanted exactly when the cuisine mentions one of the
      street-food words, in any letter case and even inside a longer word. */
  lemma StreetFoodWords(cuisine: string)
    ensures WantsStreetFood(cuisine) <==>
      exists j, i :: 0 <= j < |StreetWords| && 0 <= i <= |cuisine| && At(Lower(cuisine), i, StreetWords[j])
  {
    MatchesWords(cuisine, StreetWords);
  }
}

=== FILE: places.dfy ===
/** Places of the live map source and how they are cleaned and scored
    (index.js:233-300): the conversion of a raw map element, de-duplication
    by name and address, chain detection and the additive quality score. */
module Places {
  import opened Text
  import opened Optional
  import opened Patterns

  /** A point's coordinates as the map source reports them. */
  datatype Center = Center(lat: Option<real>, lon: Option<real>)

  /** A raw map element: a node carries its own coordinates, a way or a
      relation a computed center. A missing `tags` object is the empty map. */
  datatype Element = Element(kind: string, id: string, lat: Option<real>, lon: Option<real>,
                             center: Option<Center>, tags: map<string, string>)

  /** A candidate venue. */
  datatype Place = Place(id: string, name: string, cuisines: seq<string>, address: string,
                         amenity: string, lat: Option<real>, lon: Option<real>,
                         tags: map<string, string>, hasContact: bool)

  /** `t[k] || ""`. */
  function Tag(t: map<string, string>, k: string): string {
    if k in t then t[k] else []
  }

  /** `x || null` on a coordinate: a zero coordinate is as good as none. */
  function Truthy(x: Option<real>): (r: Option<real>)
    ensures r.Some? <==> x.Some? && x.value != 0.0
    ensures r.Some? ==> r == x
  {
    if x.Some? && x.value != 0.0 then x else None
  }

  /** The strings of `xs` that are not empty, in order: `.filter(Boolean)`. */
  function NonEmpty(xs: seq<string>): (r: seq<string>)
    ensures |r| <= |xs|
    ensures forall k :: 0 <= k < |r| ==> r[k] != [] && r[k] in xs
    ensures forall k :: 0 <= k < |xs| && xs[k] != [] ==> xs[k] in r
    ensures forall x :: multiset(r)[x] == (if x != [] then multiset(xs)[x] else 0)
    ensures SubsequenceOf(r, xs)
    ensures (forall k :: 0 <= k < |xs| ==> xs[k] != []) ==> r == xs
  {
    if xs == [] then []
    else
      var rest := NonEmpty(xs[1..]);
      var r := if xs[0] != [] then [xs[0]] + rest else rest;
      NonEmptyStep(xs, rest, r);
      if xs[0] != [] then
        assert ([xs[0]] + rest)[1..] == rest;
        r
      else r
  }

  /** One step of `filter(Boolean)`: the head is kept exactly when it is
      not empty, so every count carries over from the tail. */
  lemma NonEmptyStep(xs: seq<string>, rest: seq<string>, r: seq<string>)
    requires xs != []
    requires forall x :: multiset(rest)[x] == (if x != [] then multiset(xs[1..])[x] else 0)
    requires r == if xs[0] != [] then [xs[0]] + rest else rest
    ensures forall x :: multiset(r)[x] == (if x != [] then multiset(xs)[x] else 0)
  {
    assert xs == [xs[0]] + xs[1..];
    assert multiset(xs) == multiset{xs[0]} + multiset(xs[1..]);
    assert multiset(r) == (if xs[0] != [] then multiset{xs[0]} else multiset{}) + multiset(rest);
  }

  /** The three parts of an address line, before the empty ones are
      dropped: "street housenumber" (the number only when there is one),
      the suburb or else the neighbourhood, and the city. */
  function AddressParts(t: map<string, string>): (parts: seq<string>)
    ensures |parts| == 3
    ensures parts[0] == Tag(t, "addr:street")
                        + (if Tag(t, "addr:housenumber") != [] then " " + Tag(t, "addr:housenumber") else [])
    ensures parts[1] == Or(Tag(t, "addr:suburb"), Tag(t, "addr:neighbourhood"))
    ensures parts[2] == Tag(t, "addr:city")
  {
    var house := Tag(t, "addr:housenumber");
    [Tag(t, "addr:street") + (if house != [] then " " + house else []),
     Or(Tag(t, "addr:suburb"), Tag(t, "addr:neighbourhood")),
     Tag(t, "addr:city")]
  }

  /** The address line: street with house number, then suburb (or
      neighbourhood), then city, leaving out the empty parts. */
  function Address(t: map<string, string>): (r: string)
    ensures r == Join(NonEmpty(AddressParts(t)), ", ")
    ensures r == [] <==> (Tag(t, "addr:street") == [] && Tag(t, "addr:housenumber") == []
                          && Tag(t, "addr:suburb") == [] && Tag(t, "addr:neighbourhood") == []
                          && Tag(t, "addr:city") == [])
  {
    var house := Tag(t, "addr:housenumber");
    var parts := AddressParts(t);
    var kept := NonEmpty(parts);
    assert parts[0] == [] <==> Tag(t, "addr:street") == [] && house == [];
    assert kept == [] <==> parts[0] == [] && parts[1] == [] && parts[2] == [] by {
      forall k | 0 <= k < 3 && parts[k] != [] ensures parts[k] in kept {
      }
      if kept != [] {
        assert kept[0] in parts && kept[0] != [];
      }
    }
    JoinEmpty(kept, ", ");
    Join(kept, ", ")
  }

  /** A full address reads "street number, suburb, city". */
  lemma AddressFull(t: map<string, string>)
    requires Tag(t, "addr:street") != [] && Tag(t, "addr:housenumber") != []
    requires Tag(t, "addr:suburb") != [] && Tag(t, "addr:city") != []
    ensures Address(t) == Tag(t, "addr:street") + " " + Tag(t, "addr:housenumber") + ", "
                          + Tag(t, "addr:suburb") + ", " + Tag(t, "addr:city")
  {
    var street, house := Tag(t, "addr:street"), Tag(t, "addr:housenumber");
    var suburb, city := Tag(t, "addr:suburb"), Tag(t, "addr:city");
    var parts := AddressParts(t);
    assert parts[0] == street + " " + house;
    assert parts[1] == suburb;
    assert forall k :: 0 <= k < |parts| ==> parts[k] != [];
    assert NonEmpty(parts) == parts;
    JoinThree(parts, ", ");
    assert Address(t) == parts[0] + ", " + parts[1] + ", " + parts[2];
  }

  /** Three parts joined read first, separator, second, separator, third. */
  lemma JoinThree(parts: seq<string>, sep: string)
    requires |parts| == 3
    ensures Join(parts, sep) == parts[0] + sep + parts[1] + sep + parts[2]
  {
    assert parts[1..][1..] == [parts[2]];
    assert Join(parts[1..], sep) == parts[1] + sep + parts[2];
  }

  /** Joining non-empty strings gives "" only when there are none. */
  lemma JoinEmpty(parts: seq<string>, sep: string)
    requires forall k :: 0 <= k < |parts| ==> parts[k] != []
    ensures Join(parts, sep) == [] <==> parts == []
  {
    if |parts| >= 2 {
      assert |Join(parts, sep)| >= |parts[0]|;
    }
  }

  /** `.map(s => s.trim())`. */
  function TrimEach(xs: seq<string>): (r: seq<string>)
    ensures |r| == |xs|
    ensures forall k :: 0 <= k < |xs| ==> r[k] == Trim(xs[k])
  {
    seq(|xs|, k requires 0 <= k < |xs| => Trim(xs[k]))
  }

  /** The cuisine tag split on ";", each piece trimmed, blanks dropped. */
  function Cuisines(tag: string): (r: seq<string>)
    ensures r == NonEmpty(TrimEach(Split(tag, ';')))
    ensures forall k :: 0 <= k < |r| ==> r[k] != [] && Trimmed(r[k]) && ';' !in r[k]
  {
    var pieces := Split(tag, ';');
    var trimmed := TrimEach(pieces);
    assert forall k :: 0 <= k < |pieces| ==> ';' !in trimmed[k] by {
      forall k | 0 <= k < |pieces| ensures ';' !in trimmed[k] {
        TrimInfix(pieces[k]);
      }
    }
    NonEmpty(trimmed)
  }

  /** A well-formed tag comes back whole: when every ";"-piece is already
      non-empty and trimmed, joining the cuisines with ";" restores it. */
  lemma CuisinesJoin(tag: string)
    requires forall k :: 0 <= k < |Split(tag, ';')| ==> Split(tag, ';')[k] != [] && Trimmed(Split(tag, ';')[k])
    ensures Join(Cuisines(tag), ";") == tag
  {
    var pieces := Split(tag, ';');
    forall k | 0 <= k < |pieces| ensures TrimEach(pieces)[k] == pieces[k] {
      TrimIdentity(pieces[k]);
    }
    assert TrimEach(pieces) == pieces;
    SplitJoin(tag, ';');
  }

  /** A cuisine tag without ";" yields itself, trimmed, unless it is blank. */
  lemma SingleCuisine(tag: string)
    requires ';' !in tag
    ensures Cuisines(tag) == (if Trim(tag) == [] then [] else [Trim(tag)])
  {
    assert Split(tag, ';') == [tag];
  }

  /** `toPlace`. */
  function ToPlace(e: Element): (p: Place)
    ensures p.id == e.kind + "/" + e.id
    ensures p.name == Tag(e.tags, "name") && p.amenity == Tag(e.tags, "amenity")
    ensures p.cuisines == Cuisines(Tag(e.tags, "cuisine")) && p.address == Address(e.tags)
    ensures p.tags == e.tags
    ensures p.hasContact <==> (Tag(e.tags, "website") != [] || Tag(e.tags, "phone") != []
                              || Tag(e.tags, "contact:website") != [] || Tag(e.tags, "contact:phone") != [])
    ensures e.kind == "node" ==> p.lat == Truthy(e.lat) && p.lon == Truthy(e.lon)
    ensures e.kind != "node" && e.center.None? ==> p.lat.None? && p.lon.None?
    ensures e.kind != "node" && e.center.Some? ==>
      p.lat == Truthy(e.center.value.lat) && p.lon == Truthy(e.center.value.lon)
  {
    var t := e.tags;
    var center := if e.kind == "node" then Some(Center(e.lat, e.lon)) else e.center;
    Place(e.kind + "/" + e.id,
          Tag(t, "name"),
          Cuisines(Tag(t, "cuisine")),
          Address(t),
          Tag(t, "amenity"),
          if center.Some? then Truthy(center.value.lat) else None,
          if center.Some? then Truthy(center.value.lon) else None,
          t,
          Tag(t, "website") != [] || Tag(t, "phone") != []
            || Tag(t, "contact:website") != [] || Tag(t, "contact:phone") != [])
  }

  // ---------------------------------------------------------------------
  // De-duplication (index.js:254-261)

  /** The identity of a place: its lower-cased "name|address". */
  function Key(p: Place): string {
    Lower(p.name + "|" + p.address)
  }

  function Keys(ps: seq<Place>): set<string> {
    set k | 0 <= k < |ps| :: Key(ps[k])
  }

  /** `dedupe` with the set of keys already seen. */
  function DedupeFrom(ps: seq<Place>, seen: set<string>): seq<Place> {
    if ps == [] then []
    else if Key(ps[0]) in seen then DedupeFrom(ps[1..], seen)
    else [ps[0]] + DedupeFrom(ps[1..], seen + {Key(ps[0])})
  }

  /** `dedupe`: keep each place whose key has not been seen before. It keeps
      one place per key, drops no key, and keeps the input order. */
  function Dedupe(ps: seq<Place>): (r: seq<Place>)
    ensures DistinctKeys(r)
    ensures Keys(r) == Keys(ps)
    ensures SubsequenceOf(r, ps)
  {
    DedupeFromKeys(ps, {});
    DedupeFrom(ps, {})
  }

  /** The reference definition: a place is kept exactly when no earlier place
      has its key. */
  function KeepFirst(ps: seq<Place>): seq<Place> {
    if ps == [] then []
    else
      var init := ps[..|ps| - 1];
      KeepFirst(init) + (if Key(ps[|ps| - 1]) in Keys(init) then [] else [ps[|ps| - 1]])
  }

  /** No two places share a key. */
  predicate DistinctKeys(ps: seq<Place>) {
    forall i, j :: 0 <= i < j < |ps| ==> Key(ps[i]) != Key(ps[j])
  }

  /** `xs` is `ys` with some elements left out. */
  predicate SubsequenceOf<T(==)>(xs: seq<T>, ys: seq<T>)
    decreases |ys|
  {
    xs == [] || (ys != [] && ((xs[0] == ys[0] && SubsequenceOf(xs[1..], ys[1..])) || SubsequenceOf(xs, ys[1..])))
  }

  lemma KeysCons(p: Place, ps: seq<Place>)
    ensures Keys([p] + ps) == {Key(p)} + Keys(ps)
  {
    var xs := [p] + ps;
    forall key | key in Keys(xs) ensures key in {Key(p)} + Keys(ps) {
      var k :| 0 <= k < |xs| && Key(xs[k]) == key;
      if k > 0 { assert xs[k] == ps[k - 1]; }
    }
    forall key | key in Keys(ps) ensures key in Keys(xs) {
      var k :| 0 <= k < |ps| && Key(ps[k]) == key;
      assert xs[k + 1] == ps[k];
    }
    assert Key(xs[0]) == Key(p);
  }

  lemma KeysAppend(a: seq<Place>, b: seq<Place>)
    ensures Keys(a + b) == Keys(a) + Keys(b)
  {
    var xs := a + b;
    forall key | key in Keys(xs) ensures key in Keys(a) + Keys(b) {
      var k :| 0 <= k < |xs| && Key(xs[k]) == key;
      if k >= |a| { assert xs[k] == b[k - |a|]; }
    }
    forall key | key in Keys(a) ensures key in Keys(xs) {
      var k :| 0 <= k < |a| && Key(a[k]) == key;
      assert xs[k] == a[k];
    }
    forall key | key in Keys(b) ensures key in Keys(xs) {
      var k :| 0 <= k < |b| && Key(b[k]) == key;
      assert xs[k + |a|] == b[k];
    }
  }

  /** What the pass with a seen-set keeps: distinct keys, none of them already
      seen, and every key of the input that was not seen. */
  lemma {:induction false} DedupeFromKeys(ps: seq<Place>, seen: set<string>)
    ensures var r := DedupeFrom(ps, seen);
      && DistinctKeys(r) && Keys(r) == Keys(ps) - seen && SubsequenceOf(r, ps)
  {
    if ps != [] {
      var rest := ps[1..];
      assert ps == [ps[0]] + rest;
      KeysCons(ps[0], rest);
      if Key(ps[0]) in seen {
        DedupeFromKeys(rest, seen);
        SubsequenceSkip(DedupeFrom(rest, seen), ps);
      } else {
        var tail := DedupeFrom(rest, seen + {Key(ps[0])});
        DedupeFromKeys(rest, seen + {Key(ps[0])});
        KeysCons(ps[0], tail);
        DistinctCons(ps[0], tail);
        assert ([ps[0]] + tail)[1..] == tail;
      }
    }
  }

  /** A place whose key the others lack keeps the keys distinct. */
  lemma DistinctCons(p: Place, ps: seq<Place>)
    requires DistinctKeys(ps) && Key(p) !in Keys(ps)
    ensures DistinctKeys([p] + ps)
  {
    var r := [p] + ps;
    forall i, j | 0 <= i < j < |r| ensures Key(r[i]) != Key(r[j]) {
      assert r[j] == ps[j - 1];
      if i == 0 {
        assert Key(ps[j - 1]) in Keys(ps);
      } else {
        assert r[i] == ps[i - 1];
      }
    }
  }

  lemma SubsequenceSkip<T>(xs: seq<T>, ys: seq<T>)
    requires ys != [] && SubsequenceOf(xs, ys[1..])
    ensures SubsequenceOf(xs, ys)
  {
  }

  /** Places with distinct keys, none seen yet, all pass the filter. */
  lemma {:induction false} DedupeFromDistinct(ps: seq<Place>, seen: set<string>)
    requires DistinctKeys(ps) && Keys(ps) !! seen
    ensures DedupeFrom(ps, seen) == ps
  {
    if ps != [] {
      var rest := ps[1..];
      assert Key(ps[0]) in Keys(ps);
      assert DistinctKeys(rest) by {
        forall i, j | 0 <= i < j < |rest| ensures Key(rest[i]) != Key(rest[j]) {
          assert rest[i] == ps[i + 1] && rest[j] == ps[j + 1];
        }
      }
      assert ps == [ps[0]] + rest;
      KeysCons(ps[0], rest);
      assert Key(ps[0]) !in Keys(rest) by {
        forall k | 0 <= k < |rest| ensures Key(rest[k]) != Key(ps[0]) {
          assert ps[k + 1] == rest[k];
        }
      }
      DedupeFromDistinct(rest, seen + {Key(ps[0])});
    }
  }

  /** De-duplicating twice is de-duplicating once. */
  lemma DedupeIdempotent(ps: seq<Place>)
    ensures Dedupe(Dedupe(ps)) == Dedupe(ps)
  {
    DedupeFromDistinct(Dedupe(ps), {});
  }

  lemma {:induction false} DedupeFromAppend(a: seq<Place>, b: seq<Place>, seen: set<string>)
    ensures DedupeFrom(a + b, seen) == DedupeFrom(a, seen) + DedupeFrom(b, seen + Keys(a))
  {
    if a == [] {
      assert a + b == b;
      assert Keys(a) == {};
      assert seen + Keys(a) == seen;
    } else {
      assert (a + b)[1..] == a[1..] + b;
      assert a == [a[0]] + a[1..];
      KeysCons(a[0], a[1..]);
      if Key(a[0]) in seen {
        DedupeFromAppend(a[1..], b, seen);
        assert seen + Keys(a[1..]) == seen + Keys(a);
      } else {
        DedupeFromAppend(a[1..], b, seen + {Key(a[0])});
        assert seen + {Key(a[0])} + Keys(a[1..]) == seen + Keys(a);
      }
    }
  }

  /** The one-pass filter with a seen-set is the reference definition: each
      place is kept exactly when it is the first with its key. */
  lemma {:induction false} DedupeKeepsFirst(ps: seq<Place>)
    ensures Dedupe(ps) == KeepFirst(ps)
    decreases |ps|
  {
    if ps != [] {
      var init := ps[..|ps| - 1];
      var last := ps[|ps| - 1];
      assert ps == init + [last];
      DedupeKeepsFirst(init);
      DedupeFromAppend(init, [last], {});
      assert {} + Keys(init) == Keys(init);
      assert [last][1..] == [];
    }
  }

  // ---------------------------------------------------------------------
  // Chains and the quality score (index.js:263-300)

  /** `isChain`: a named place whose name is on the chain list or that
      carries a brand tag. */
  predicate IsChain(name: string, tags: map<string, string>) {
    name != [] && (Matches(name, ChainPattern) || Branded(tags))
  }

  /** The place carries one of the three brand tags. */
  predicate Branded(tags: map<string, string>) {
    Tag(tags, "brand") != [] || Tag(tags, "brand:wikidata") != [] || Tag(tags, "brand:wikipedia") != []
  }

  /** A chain name is recognised in any letter case and anywhere in the
      name, whatever the tags say; an unnamed place is never one. */
  lemma ChainRule(name: string, tags: map<string, string>, k: nat, i: nat)
    requires k < |ChainPattern| && i <= |name| && PhraseAt(Lower(name), i, ChainPattern[k])
    ensures IsChain(name, tags)
    ensures forall t :: IsChain(name, t)
    ensures !IsChain([], tags)
  {
  }

  /** For a named place, `isChain` answers true for a brand tag whatever
      the name says, and false only when the name has no chain phrase and
      no brand tag is set. */
  lemma BrandRule(name: string, tags: map<string, string>)
    requires name != []
    ensures Branded(tags) ==> IsChain(name, tags)
    ensures !Matches(name, ChainPattern) && !Branded(tags) ==> !IsChain(name, tags)
    ensures IsChain(name, tags) ==> Matches(name, ChainPattern) || Branded(tags)
  {
  }

  /** The score given to a place that must never be shown. */
  const Rejected := -999

  /** The points for matching the requested cuisine: 3 for the name and 2
      for any cuisine tag, against `cuisineRe || nameRe`. */
  function CuisinePoints(p: Place, wantCuisine: string): (n: int)
    ensures 0 <= n <= 5
    ensures wantCuisine == [] ==> n == 0
  {
    if wantCuisine == [] then 0
    else
      var pat := ScorePattern(CuisineSyn(wantCuisine));
      if pat == [] then 0
      else
        (if Matches(p.name, pat) then 3 else 0) + (if TagHit(p.cuisines, pat) then 2 else 0)
  }

  /** `p.cuisines.some(c => re.test(c))`. */
  predicate TagHit(cuisines: seq<string>, pat: Pattern) {
    exists k :: 0 <= k < |cuisines| && Matches(cuisines[k], pat)
  }

  /** 1 for a test that passes, 0 for one that fails. */
  function Bit(b: bool): int {
    if b then 1 else 0
  }

  /** The fast-food adjustment: with street food requested a taco-like name
      earns 2 and any other name loses 2; otherwise fast food loses 5. */
  function FastFoodPoints(p: Place, wantStreet: bool): (n: int)
    ensures -5 <= n <= 2
    ensures n == 0 <==> p.amenity != "fast_food"
    ensures n > 0 <==> p.amenity == "fast_food" && wantStreet && Matches(p.name, TacoPattern)
    ensures n == -5 <==> p.amenity == "fast_food" && !wantStreet
  {
    if p.amenity != "fast_food" then 0
    else if wantStreet then (if Matches(p.name, TacoPattern) then 2 else -2)
    else -5
  }

  /** The points that depend on the name and the cuisine tags: a wine bar
      earns 1, the requested cuisine up to 5, a fine-dining name 3. */
  function NamePoints(p: Place, wantCuisine: string): (n: int)
    ensures 0 <= n <= 9
  {
    (if Matches(p.name, WinePattern) then 1 else 0)
    + CuisinePoints(p, wantCuisine)
    + (if Matches(p.name, FinePattern) then 3 else 0)
  }

  /** The points a place of the given amenity type earns for it. */
  function AmenityPoints(p: Place, wantStreet: bool): (n: int)
    ensures -5 <= n <= 3
    ensures p.amenity == "restaurant" ==> n == 3
    ensures p.amenity != "restaurant" ==> n == FastFoodPoints(p, wantStreet)
  {
    (if p.amenity == "restaurant" then 3 else 0) + FastFoodPoints(p, wantStreet)
  }

  /** `scoreQuality`. */
  function ScoreQuality(p: Place, wantStreet: bool, wantCuisine: string): (s: int)
    ensures s == Rejected <==> p.name == [] || IsChain(p.name, p.tags)
    ensures s != Rejected ==> -5 <= s <= 16
    ensures s != Rejected && p.amenity == "fast_food" && !wantStreet ==> s <= 8
  {
    if p.name == [] then Rejected
    else if IsChain(p.name, p.tags) then Rejected
    else
      AmenityPoints(p, wantStreet)
      + (if |p.cuisines| > 0 then 2 else 0)
      + (if p.hasContact then 2 else 0)
      + NamePoints(p, wantCuisine)
  }

  /** The score of a place that can be shown is the sum of the bonuses of
      index.js:278-298: 3 for a restaurant, 2 for cuisine tags, 2 for a
      contact, 1 for wine-bar words, 3 for a name and 2 for a tag matching
      the requested cuisine, 3 for fine-dining words, and the fast-food
      adjustment. */
  lemma ScoreSum(p: Place, wantStreet: bool, wantCuisine: string)
    requires p.name != [] && !IsChain(p.name, p.tags)
    ensures var pat := ScorePattern(CuisineSyn(wantCuisine));
      ScoreQuality(p, wantStreet, wantCuisine)
      == 3 * Bit(p.amenity == "restaurant") + 2 * Bit(|p.cuisines| > 0) + 2 * Bit(p.hasContact)
         + Bit(Matches(p.name, WinePattern))
         + 3 * Bit(Matches(p.name, pat)) + 2 * Bit(TagHit(p.cuisines, pat))
         + 3 * Bit(Matches(p.name, FinePattern))
         + FastFoodPoints(p, wantStreet)
  {
    CuisinePointsSplit(p, wantCuisine);
  }

  /** A plain place earns nothing: named, no chain, neither restaurant nor
      fast food, no cuisine tags, no contact, and no name or tag test
      passing. With the difference lemmas below this fixes every score. */
  lemma ScoreBase(p: Place, wantStreet: bool, wantCuisine: string)
    requires p.name != [] && !IsChain(p.name, p.tags)
    requires p.amenity != "restaurant" && p.amenity != "fast_food"
    requires p.cuisines == [] && !p.hasContact
    requires !Matches(p.name, WinePattern) && !Matches(p.name, FinePattern)
    requires !Matches(p.name, ScorePattern(CuisineSyn(wantCuisine)))
    ensures ScoreQuality(p, wantStreet, wantCuisine) == 0
  {
    ScoreSum(p, wantStreet, wantCuisine);
  }

  /** The amenity type alone moves the score: a restaurant earns 3 over a
      cafe, and fast food is adjusted by -5, or by +2 / -2 on request. */
  lemma AmenityAdjustment(p: Place, wantStreet: bool, wantCuisine: string)
    requires ScoreQuality(p, wantStreet, wantCuisine) != Rejected
    ensures var cafe := ScoreQuality(p.(amenity := "cafe"), wantStreet, wantCuisine);
      && ScoreQuality(p.(amenity := "restaurant"), wantStreet, wantCuisine) == cafe + 3
      && ScoreQuality(p.(amenity := "fast_food"), wantStreet, wantCuisine)
         == cafe + (if !wantStreet then -5 else if Matches(p.name, TacoPattern) then 2 else -2)
  {
    NameOnlyPoints(p, p.(amenity := "cafe"), wantCuisine);
    NameOnlyPoints(p, p.(amenity := "restaurant"), wantCuisine);
    NameOnlyPoints(p, p.(amenity := "fast_food"), wantCuisine);
  }

  /** What the name is worth: between two places that differ only in their
      names, the scores differ by 1 for the wine-bar words, 3 for the
      fine-dining words and 3 for the requested cuisine's pattern (the
      fast-food name test aside). */
  lemma NameWorth(p: Place, q: Place, wantStreet: bool, wantCuisine: string)
    requires q == p.(name := q.name)
    requires p.name != [] && !IsChain(p.name, p.tags) && q.name != [] && !IsChain(q.name, q.tags)
    requires p.amenity == "fast_food" && wantStreet ==> (Matches(p.name, TacoPattern) <==> Matches(q.name, TacoPattern))
    ensures var pat := ScorePattern(CuisineSyn(wantCuisine));
      ScoreQuality(p, wantStreet, wantCuisine) - ScoreQuality(q, wantStreet, wantCuisine)
      == (Bit(Matches(p.name, WinePattern)) - Bit(Matches(q.name, WinePattern)))
         + 3 * (Bit(Matches(p.name, FinePattern)) - Bit(Matches(q.name, FinePattern)))
         + 3 * (Bit(Matches(p.name, pat)) - Bit(Matches(q.name, pat)))
  {
    ScoreSum(p, wantStreet, wantCuisine);
    ScoreSum(q, wantStreet, wantCuisine);
    assert FastFoodPoints(p, wantStreet) == FastFoodPoints(q, wantStreet);
  }

  /** The cuisine points as the two tests against `cuisineRe || nameRe`:
      3 for the name, 2 for any tag. */
  lemma CuisinePointsSplit(p: Place, wantCuisine: string)
    ensures var pat := ScorePattern(CuisineSyn(wantCuisine));
      CuisinePoints(p, wantCuisine) == 3 * Bit(Matches(p.name, pat)) + 2 * Bit(TagHit(p.cuisines, pat))
  {
    var pat := ScorePattern(CuisineSyn(wantCuisine));
    if wantCuisine == [] {
      ScorePatternPresent(wantCuisine);
      assert pat == [];
    }
  }

  /** What the cuisine tags are worth: between two places that differ only
      in their tags, having any tag is worth 2, and a tag matching the
      requested cuisine's pattern 2 more. */
  lemma CuisineTagsWorth(p: Place, q: Place, wantStreet: bool, wantCuisine: string)
    requires q == p.(cuisines := q.cuisines)
    requires p.name != [] && !IsChain(p.name, p.tags)
    ensures var pat := ScorePattern(CuisineSyn(wantCuisine));
      ScoreQuality(p, wantStreet, wantCuisine) - ScoreQuality(q, wantStreet, wantCuisine)
      == 2 * (Bit(|p.cuisines| > 0) - Bit(|q.cuisines| > 0))
         + 2 * (Bit(TagHit(p.cuisines, pat)) - Bit(TagHit(q.cuisines, pat)))
  {
    assert q.name == p.name && q.tags == p.tags;
    ScoreSum(p, wantStreet, wantCuisine);
    ScoreSum(q, wantStreet, wantCuisine);
    assert FastFoodPoints(p, wantStreet) == FastFoodPoints(q, wantStreet);
  }

  /** Places with the same name and cuisine tags earn the same name points. */
  lemma NameOnlyPoints(p: Place, q: Place, wantCuisine: string)
    requires p.name == q.name && p.cuisines == q.cuisines
    ensures NamePoints(p, wantCuisine) == NamePoints(q, wantCuisine)
  {
  }

  /** A contact channel is worth 2, whatever else holds. */
  lemma ContactBonus(p: Place, wantStreet: bool, wantCuisine: string)
    requires ScoreQuality(p, wantStreet, wantCuisine) != Rejected
    ensures ScoreQuality(p.(hasContact := true), wantStreet, wantCuisine)
         == ScoreQuality(p.(hasContact := false), wantStreet, wantCuisine) + 2
  {
    NameOnlyPoints(p, p.(hasContact := true), wantCuisine);
    NameOnlyPoints(p, p.(hasContact := false), wantCuisine);
  }
}

=== FILE: prestige.dfy ===
/** The curated catalogue lookup of db.js:23-37: the restaurants of a loaded
    catalogue that lie within a radius of a point and serve a cuisine, the
    most prestigious first and, among equals, the nearest first. The
    catalogue and the great-circle distance are parameters. */
module Prestige {
  import opened Text
  import opened Optional
  import opened Seqs
  import Places

  /** A catalogue entry: its coordinates, its free-text cuisine (missing is
      ""), its prestige (missing is `None`) and every other field. */
  datatype Record = Record(lat: Option<real>, lng: Option<real>, cuisine: string,
                           prestige: Option<real>, fields: map<string, string>)

  /** `{ ...r, dist_km }`: an entry with its distance from the search point. */
  datatype Row = Row(rec: Record, distKm: real)

  /** The great-circle distance in kilometres between two points. */
  type Distance = (real, real, real, real) -> real

  const DefaultRadiusKm: real := 5.0
  const DefaultLimit: int := 9

  /** `r.lat && r.lng`: both coordinates present and non-zero. */
  predicate HasCoordinates(rec: Record) {
    Places.Truthy(rec.lat).Some? && Places.Truthy(rec.lng).Some?
  }

  /** The distance of a placed entry from the point (`lat`, `lon`). */
  function DistanceTo(rec: Record, lat: real, lon: real, dist: Distance): real
    requires HasCoordinates(rec)
  {
    dist(lat, lon, rec.lat.value, rec.lng.value)
  }

  /** `(cuisine || "").toLowerCase().trim()`. */
  function Wanted(cuisine: string): string {
    Trim(Lower(cuisine))
  }

  /** The filter on the cuisine: an empty wish keeps every entry, any other
      keeps the entries whose lower-cased cuisine contains it. */
  predicate Serves(rec: Record, want: string) {
    want == [] || Contains(Lower(rec.cuisine), want)
  }

  /** Everything an entry must satisfy to be listed, in one place. */
  predicate Qualifies(rec: Record, lat: real, lon: real, radius: real, want: string,
                      dist: Distance)
  {
    HasCoordinates(rec) && DistanceTo(rec, lat, lon, dist) <= radius && Serves(rec, want)
  }

  /** The qualifying entries of `data` in catalogue order, each with its
      distance: the one-pass reading of the lookup's filters. */
  function Qualifying(data: seq<Record>, lat: real, lon: real, radius: real, want: string,
                      dist: Distance): (r: seq<Row>)
    ensures forall row :: row in r <==>
      row.rec in data && Qualifies(row.rec, lat, lon, radius, want, dist)
      && row.distKm == DistanceTo(row.rec, lat, lon, dist)
  {
    if data == [] then []
    else
      var rec := data[0];
      (if Qualifies(rec, lat, lon, radius, want, dist)
       then [Row(rec, DistanceTo(rec, lat, lon, dist))] else [])
      + Qualifying(data[1..], lat, lon, radius, want, dist)
  }

  // ---------------------------------------------------------------------
  // The chain of array operations, stage by stage

  /** `.filter(r => r.lat && r.lng)` */
  function WithCoordinates(data: seq<Record>): (r: seq<Record>)
    ensures forall rec :: rec in r <==> rec in data && HasCoordinates(rec)
  {
    if data == [] then []
    else (if HasCoordinates(data[0]) then [data[0]] else []) + WithCoordinates(data[1..])
  }

  /** `.map(r => ({ ...r, dist_km: haversineKm(lat, lon, r.lat, r.lng) }))` */
  function Measure(recs: seq<Record>, lat: real, lon: real, dist: Distance): (r: seq<Row>)
    requires forall k :: 0 <= k < |recs| ==> HasCoordinates(recs[k])
    ensures |r| == |recs|
    ensures forall k :: 0 <= k < |r| ==>
      r[k].rec == recs[k] && r[k].distKm == DistanceTo(recs[k], lat, lon, dist)
  {
    if recs == [] then []
    else [Row(recs[0], DistanceTo(recs[0], lat, lon, dist))] + Measure(recs[1..], lat, lon, dist)
  }

  /** `.filter(r => r.dist_km <= radiusKm)` */
  function Within(rows: seq<Row>, radius: real): (r: seq<Row>)
    ensures forall row :: row in r <==> row in rows && row.distKm <= radius
  {
    if rows == [] then []
    else (if rows[0].distKm <= radius then [rows[0]] else []) + Within(rows[1..], radius)
  }

  /** `.filter(r => want ? String(r.cuisine || "").toLowerCase().includes(want) : true)` */
  function Serving(rows: seq<Row>, want: string): (r: seq<Row>)
    ensures forall row :: row in r <==> row in rows && Serves(row.rec, want)
  {
    if rows == [] then []
    else (if Serves(rows[0].rec, want) then [rows[0]] else []) + Serving(rows[1..], want)
  }

  /** The filters and the map, in the lookup's order. */
  function Candidates(data: seq<Record>, lat: real, lon: real, radius: real, want: string,
                      dist: Distance): seq<Row>
  {
    Serving(Within(Measure(WithCoordinates(data), lat, lon, dist), radius), want)
  }

  lemma {:induction false} MeasureAppend(a: seq<Record>, b: seq<Record>, lat: real, lon: real,
                                         dist: Distance)
    requires forall k :: 0 <= k < |a| ==> HasCoordinates(a[k])
    requires forall k :: 0 <= k < |b| ==> HasCoordinates(b[k])
    ensures forall k :: 0 <= k < |a + b| ==> HasCoordinates((a + b)[k])
    ensures Measure(a + b, lat, lon, dist) == Measure(a, lat, lon, dist) + Measure(b, lat, lon, dist)
  {
    assert forall k :: 0 <= k < |a + b| ==> HasCoordinates((a + b)[k]) by {
      forall k | 0 <= k < |a + b| ensures HasCoordinates((a + b)[k]) {
        if k >= |a| { assert (a + b)[k] == b[k - |a|]; }
      }
    }
  }

  lemma {:induction false} WithinAppend(a: seq<Row>, b: seq<Row>, radius: real)
    ensures Within(a + b, radius) == Within(a, radius) + Within(b, radius)
  {
    if a != [] {
      assert (a + b)[1..] == a[1..] + b;
      WithinAppend(a[1..], b, radius);
    } else {
      assert a + b == b;
    }
  }

  lemma {:induction false} ServingAppend(a: seq<Row>, b: seq<Row>, want: string)
    ensures Serving(a + b, want) == Serving(a, want) + Serving(b, want)
  {
    if a != [] {
      assert (a + b)[1..] == a[1..] + b;
      ServingAppend(a[1..], b, want);
    } else {
      assert a + b == b;
    }
  }

  /** The chain of filters and the map keeps exactly the qualifying entries,
      in catalogue order, each with its own distance. */
  lemma {:induction false} CandidatesQualify(data: seq<Record>, lat: real, lon: real,
                                             radius: real, want: string, dist: Distance)
    ensures Candidates(data, lat, lon, radius, want, dist)
         == Qualifying(data, lat, lon, radius, want, dist)
  {
    if data != [] {
      var head := if HasCoordinates(data[0]) then [data[0]] else [];
      var tail := WithCoordinates(data[1..]);
      assert WithCoordinates(data) == head + tail;
      MeasureAppend(head, tail, lat, lon, dist);
      var m1 := Measure(head, lat, lon, dist);
      var m2 := Measure(tail, lat, lon, dist);
      WithinAppend(m1, m2, radius);
      ServingAppend(Within(m1, radius), Within(m2, radius), want);
      CandidatesQualify(data[1..], lat, lon, radius, want, dist);
    }
  }

  // ---------------------------------------------------------------------
  // Ordering and the lookup

  /** The comparator `(b.prestige ?? 0) - (a.prestige ?? 0) || a.dist_km - b.dist_km`:
      higher prestige first, a missing prestige counting as 0, then the
      nearer first. */
  function ByPrestige(row: Row): Rank {
    Rank(-row.rec.prestige.GetOr(0.0), row.distKm)
  }

  /** One row is listed ahead of another exactly when it is more
      prestigious, or as prestigious and nearer. */
  lemma ByPrestigeOrder(a: Row, b: Row)
    ensures Precedes(ByPrestige(a), ByPrestige(b)) <==>
      a.rec.prestige.GetOr(0.0) > b.rec.prestige.GetOr(0.0)
      || (a.rec.prestige.GetOr(0.0) == b.rec.prestige.GetOr(0.0) && a.distKm < b.distKm)
  {
  }

  /** `findTopByPrestige({ lat, lon, radiusKm, cuisine, limit })` over the
      catalogue `data`; a missing radius is 5 km and a missing limit is 9. */
  function FindTopByPrestige(data: seq<Record>, lat: real, lon: real, radiusKm: Option<real>,
                             cuisine: string, limit: Option<int>, dist: Distance): (r: seq<Row>)
    ensures var q := Qualifying(data, lat, lon, radiusKm.GetOr(DefaultRadiusKm), Wanted(cuisine), dist);
      && multiset(r) <= multiset(q)
      && (forall k :: 0 <= k < |r| ==> r[k] in q)
      && (limit.GetOr(DefaultLimit) >= 0 ==>
            |r| == (if limit.GetOr(DefaultLimit) < |q| then limit.GetOr(DefaultLimit) else |q|))
      && (limit.GetOr(DefaultLimit) < 0 ==>
            |r| == (if |q| + limit.GetOr(DefaultLimit) > 0 then |q| + limit.GetOr(DefaultLimit) else 0))
    ensures r == SliceTo(SortBy(Qualifying(data, lat, lon, radiusKm.GetOr(DefaultRadiusKm),
                                           Wanted(cuisine), dist), ByPrestige),
                         limit.GetOr(DefaultLimit))
    ensures forall k :: 0 <= k < |r| ==>
      && r[k].rec in data
      && Qualifies(r[k].rec, lat, lon, radiusKm.GetOr(DefaultRadiusKm), Wanted(cuisine), dist)
      && r[k].distKm == DistanceTo(r[k].rec, lat, lon, dist)
    ensures forall i, j :: 0 <= i < j < |r| ==>
      r[i].rec.prestige.GetOr(0.0) > r[j].rec.prestige.GetOr(0.0)
      || (r[i].rec.prestige.GetOr(0.0) == r[j].rec.prestige.GetOr(0.0) && r[i].distKm <= r[j].distKm)
  {
    var radius := radiusKm.GetOr(DefaultRadiusKm);
    var want := Wanted(cuisine);
    var rows := Candidates(data, lat, lon, radius, want, dist);
    CandidatesQualify(data, lat, lon, radius, want, dist);
    var r := Top(rows, ByPrestige, limit.GetOr(DefaultLimit));
    forall i, j | 0 <= i < j < |r|
      ensures r[i].rec.prestige.GetOr(0.0) > r[j].rec.prestige.GetOr(0.0)
        || (r[i].rec.prestige.GetOr(0.0) == r[j].rec.prestige.GetOr(0.0) && r[i].distKm <= r[j].distKm)
    {
      assert !Precedes(ByPrestige(r[j]), ByPrestige(r[i]));
    }
    r
  }

  /** The lookup lists the best qualifying entries: an entry that qualifies
      but is not listed is neither more prestigious than a listed one nor as
      prestigious and nearer. */
  lemma TopByPrestige(data: seq<Record>, lat: real, lon: real, radiusKm: Option<real>,
                      cuisine: string, limit: Option<int>, dist: Distance, rec: Record, i: nat)
    requires Qualifies(rec, lat, lon, radiusKm.GetOr(DefaultRadiusKm), Wanted(cuisine), dist)
    requires rec in data
    ensures var r := FindTopByPrestige(data, lat, lon, radiusKm, cuisine, limit, dist);
      i < |r| && Row(rec, DistanceTo(rec, lat, lon, dist)) !in r ==>
      rec.prestige.GetOr(0.0) <= r[i].rec.prestige.GetOr(0.0)
      && (rec.prestige.GetOr(0.0) == r[i].rec.prestige.GetOr(0.0) ==>
            DistanceTo(rec, lat, lon, dist) >= r[i].distKm)
  {
    var radius := radiusKm.GetOr(DefaultRadiusKm);
    var want := Wanted(cuisine);
    var rows := Candidates(data, lat, lon, radius, want, dist);
    CandidatesQualify(data, lat, lon, radius, want, dist);
    var x := Row(rec, DistanceTo(rec, lat, lon, dist));
    assert x in rows;
    var r := FindTopByPrestige(data, lat, lon, radiusKm, cuisine, limit, dist);
    assert r == Top(rows, ByPrestige, limit.GetOr(DefaultLimit));
    if i < |r| && x !in r {
      assert !Precedes(ByPrestige(x), ByPrestige(r[i]));
    }
  }

  /** Entries of equal prestige and distance are listed in catalogue order. */
  lemma TiesKeepCatalogueOrder(data: seq<Record>, lat: real, lon: real, radius: real,
                               want: string, dist: Distance, k: Rank)
    ensures WithRank(SortBy(Candidates(data, lat, lon, radius, want, dist), ByPrestige), ByPrestige, k)
         == WithRank(Qualifying(data, lat, lon, radius, want, dist), ByPrestige, k)
  {
    CandidatesQualify(data, lat, lon, radius, want, dist);
    SortStable(Candidates(data, lat, lon, radius, want, dist), ByPrestige, k);
  }
}

=== FILE: search.dfy ===
/** The live search (index.js:169-176, 198-199, 302-318): locating a city and
    zone with the geocoder, with one retry under the city's canonical name,
    and the map search that widens its radius once, then cleans, scores,
    filters, ranks and truncates the places it gets back. Both services are
    oracles: functions from the request to what the service answers. */
module Search {
  import opened Text
  import opened Optional
  import opened Seqs
  import opened Patterns
  import opened Places

  // ---------------------------------------------------------------------
  // Geocoding (index.js:169-176)

  /** The first geocoder result: coordinates as the decimal strings the
      service sends, and the place type. */
  datatype Hit = Hit(lat: string, lon: string, kind: string)

  /** The geocoder as `geocode(q)` behaves: `Threw` when the request itself
      fails, `None` for an error status or an empty answer. */
  type Geocoder = string -> Fetch<Option<Hit>>

  /** The text searched for: "zone, city", or the city alone. */
  function CityZoneQuery(city: string, zone: string): (q: string)
    ensures zone == [] ==> q == city
    ensures zone != [] ==> q == zone + ", " + city
  {
    if zone != [] then zone + ", " + city else city
  }

  /** An answer good enough to keep: it has both coordinates and is not a
      whole country. */
  predicate Usable(h: Option<Hit>) {
    h.Some? && h.value.lat != [] && h.value.lon != [] && h.value.kind != "country"
  }

  /** The questions put to the geocoder, in order, and the answer kept. */
  datatype Located = Located(queries: seq<string>, pin: Fetch<Option<Hit>>)

  /** `geocodeCityZone`: ask for "zone, city"; when the answer is unusable
      and the city has a different canonical name, ask once more for that
      name alone and keep the second answer. */
  function GeocodeCityZone(city: string, zone: string, geocode: Geocoder): (g: Located)
    ensures 1 <= |g.queries| <= 2 && g.queries[0] == CityZoneQuery(city, zone)
    ensures g.pin == geocode(g.queries[|g.queries| - 1])
    ensures |g.queries| == 2 <==>
      (geocode(CityZoneQuery(city, zone)).Done? && !Usable(geocode(CityZoneQuery(city, zone)).value)
       && NormalizeCity(city) != city)
    ensures |g.queries| == 2 ==> g.queries[1] == NormalizeCity(city)
    ensures geocode(CityZoneQuery(city, zone)).Done? && Usable(geocode(CityZoneQuery(city, zone)).value)
            ==> g.pin == geocode(CityZoneQuery(city, zone))
  {
    var q := CityZoneQuery(city, zone);
    match geocode(q)
    case Threw => Located([q], Threw)
    case Done(first) =>
      if !Usable(first) && NormalizeCity(city) != city then
        var alt := NormalizeCity(city);
        Located([q, alt], geocode(alt))
      else Located([q], Done(first))
  }

  /** A city already in canonical form is never retried: the turn handler
      passes `normalizeCity(city)`, so its geocoding is one question. */
  lemma NoRetryAfterNormalize(city: string, zone: string, geocode: Geocoder)
    ensures GeocodeCityZone(NormalizeCity(city), zone, geocode).queries
         == [CityZoneQuery(NormalizeCity(city), zone)]
  {
    NormalizeCityIdempotent(city);
  }

  // ---------------------------------------------------------------------
  // The map search (index.js:198-199, 302-318)

  /** One map query: the centre, the search radius in metres as the query
      text carries it, the name and cuisine patterns, and the two switches. */
  datatype Query = Query(lat: string, lon: string, around: int, nameRe: Pattern,
                         cuisineRe: Pattern, includeFastFood: bool, diet: bool)

  /** The map service: `Threw` for an error status, else the elements. */
  type Overpass = Query -> Fetch<seq<Element>>

  const MinAround := 700
  const MaxAround := 6000

  /** The radius written into the query, kept between 700 and 6000 metres. */
  function Around(radius: int): (a: int)
    ensures MinAround <= a <= MaxAround
    ensures MinAround <= radius <= MaxAround ==> a == radius
    ensures radius < MinAround ==> a == MinAround
    ensures radius > MaxAround ==> a == MaxAround
  {
    if radius > MaxAround then MaxAround else if radius < MinAround then MinAround else radius
  }

  /** The first radius: tight when a zone is known, wider for street food,
      widest otherwise. */
  function StartRadius(zoneProvided: bool, wantStreet: bool): (r: int)
    ensures zoneProvided ==> r == 1500
    ensures !zoneProvided && wantStreet ==> r == 2500
    ensures !zoneProvided && !wantStreet ==> r == 3500
  {
    if zoneProvided then 1500 else if wantStreet then 2500 else 3500
  }

  /** The radius of the second query: 2500 metres more, 6000 at most. */
  function Widened(radius: int): (r: int)
    ensures r <= MaxAround
    ensures r <= radius + 2500
    ensures radius + 2500 <= MaxAround ==> r == radius + 2500
    ensures radius + 2500 >= MaxAround ==> r == MaxAround
  {
    if radius + 2500 < MaxAround then radius + 2500 else MaxAround
  }

  /** A place with the score it was given. */
  datatype Scored = Scored(place: Place, score: int)

  /** Higher scores first; equal scores keep their order. */
  function ByScore(s: Scored): Rank {
    Rank(-(s.score as real), 0.0)
  }

  function ToPlaces(els: seq<Element>): (ps: seq<Place>)
    ensures |ps| == |els|
    ensures forall k :: 0 <= k < |els| ==> ps[k] == ToPlace(els[k])
  {
    seq(|els|, k requires 0 <= k < |els| => ToPlace(els[k]))
  }

  function ScoreAll(ps: seq<Place>, wantStreet: bool, cuisine: string): (r: seq<Scored>)
    ensures |r| == |ps|
    ensures forall k :: 0 <= k < |ps| ==>
      r[k].place == ps[k] && r[k].score == ScoreQuality(ps[k], wantStreet, cuisine)
  {
    seq(|ps|, k requires 0 <= k < |ps| => Scored(ps[k], ScoreQuality(ps[k], wantStreet, cuisine)))
  }

  /** `.filter(p => p._score > 2)`. */
  function AboveTwo(xs: seq<Scored>): (r: seq<Scored>)
    ensures forall x :: x in r <==> x in xs && x.score > 2
    ensures forall x :: multiset(r)[x] == (if x.score > 2 then multiset(xs)[x] else 0)
    ensures SubsequenceOf(r, xs)
  {
    if xs == [] then []
    else
      var rest := AboveTwo(xs[1..]);
      assert multiset(xs) == multiset{xs[0]} + multiset(xs[1..]) by {
        assert xs == [xs[0]] + xs[1..];
      }
      if xs[0].score > 2 then
        assert ([xs[0]] + rest)[1..] == rest;
        assert multiset([xs[0]] + rest) == multiset{xs[0]} + multiset(rest);
        [xs[0]] + rest
      else rest
  }

  /** The places worth showing: de-duplicated, scored, above 2. */
  function Candidates(els: seq<Element>, wantStreet: bool, cuisine: string): (r: seq<Scored>)
    ensures forall x :: x in r <==>
      x.place in Dedupe(ToPlaces(els)) && x.score == ScoreQuality(x.place, wantStreet, cuisine)
      && x.score > 2
    ensures SubsequenceOf(r, ScoreAll(Dedupe(ToPlaces(els)), wantStreet, cuisine))
  {
    var ps := Dedupe(ToPlaces(els));
    ScoredMembers(ps, wantStreet, cuisine);
    AboveTwo(ScoreAll(ps, wantStreet, cuisine))
  }

  /** The scored list holds each place with its own score, and nothing else. */
  lemma ScoredMembers(ps: seq<Place>, wantStreet: bool, cuisine: string)
    ensures forall x :: x in ScoreAll(ps, wantStreet, cuisine) <==>
      x.place in ps && x.score == ScoreQuality(x.place, wantStreet, cuisine)
  {
    var scored := ScoreAll(ps, wantStreet, cuisine);
    forall x: Scored | x.place in ps && x.score == ScoreQuality(x.place, wantStreet, cuisine)
      ensures x in scored
    {
      var k :| 0 <= k < |ps| && ps[k] == x.place;
      assert scored[k] == x;
    }
  }

  /** At most nine of the candidates, best score first, and no candidate
      left out that scores above one kept. */
  function TopNine(c: seq<Scored>): (r: seq<Scored>)
    ensures |r| == (if |c| < 9 then |c| else 9)
    ensures multiset(r) <= multiset(c)
    ensures forall k :: 0 <= k < |r| ==> r[k] in c
    ensures forall i, j :: 0 <= i < j < |r| ==> r[i].score >= r[j].score
    ensures forall x, i :: x in c && x !in r && 0 <= i < |r| ==> x.score <= r[i].score
  {
    var r := Top(c, ByScore, 9);
    forall i, j | 0 <= i < j < |r| ensures r[i].score >= r[j].score {
      assert !Precedes(ByScore(r[j]), ByScore(r[i]));
    }
    forall x, i | x in c && x !in r && 0 <= i < |r| ensures x.score <= r[i].score {
      assert !Precedes(ByScore(x), ByScore(r[i]));
    }
    r
  }

  /** Of equal scores, the candidates kept are the first ones in candidate
      order, which is the order the map service sent them in. */
  lemma TopNineTies(c: seq<Scored>, k: Rank)
    ensures WithRank(TopNine(c), ByScore, k) <= WithRank(c, ByScore, k)
  {
    TopTies(c, ByScore, 9, k);
  }

  /** `r` is what `.sort(...).slice(0, 9)` keeps of the candidates `c`:
      nine of them, or all when there are fewer, no candidate more often
      than it occurs in `c`, none left out scoring above one kept, and of
      each score the first candidates in candidate order. */
  ghost predicate TopNineOf(r: seq<Scored>, c: seq<Scored>) {
    && |r| == (if |c| < 9 then |c| else 9)
    && multiset(r) <= multiset(c)
    && (forall k :: WithRank(r, ByScore, k) <= WithRank(c, ByScore, k))
    && (forall k :: 0 <= k < |r| ==> r[k] in c)
    && (forall x, i :: x in c && x !in r && 0 <= i < |r| ==> x.score <= r[i].score)
  }

  /** What `searchPlaces` answers for the elements the map service sent:
      the best nine of the candidates, each named, no chain, scored above 2,
      best first. */
  function Shortlist(els: seq<Element>, wantStreet: bool, cuisine: string): (r: seq<Scored>)
    ensures TopNineOf(r, Candidates(els, wantStreet, cuisine))
    ensures |r| <= 9
    ensures forall k :: 0 <= k < |r| ==>
      r[k].score > 2 && r[k].place.name != [] && !IsChain(r[k].place.name, r[k].place.tags)
      && r[k].score == ScoreQuality(r[k].place, wantStreet, cuisine)
    ensures forall i, j :: 0 <= i < j < |r| ==> r[i].score >= r[j].score
  {
    var c := Candidates(els, wantStreet, cuisine);
    var r := TopNine(c);
    forall k | 0 <= k < |r|
      ensures r[k].score > 2 && r[k].place.name != [] && !IsChain(r[k].place.name, r[k].place.tags)
      && r[k].score == ScoreQuality(r[k].place, wantStreet, cuisine)
    {
      CandidateShown(els, wantStreet, cuisine, r[k]);
    }
    forall k ensures WithRank(r, ByScore, k) <= WithRank(c, ByScore, k) {
      TopNineTies(c, k);
    }
    r
  }

  /** Every candidate has a name and is no chain. */
  lemma CandidateShown(els: seq<Element>, wantStreet: bool, cuisine: string, x: Scored)
    ensures x in Candidates(els, wantStreet, cuisine) ==>
      && x.score > 2 && x.score == ScoreQuality(x.place, wantStreet, cuisine)
      && x.place.name != [] && !IsChain(x.place.name, x.place.tags)
  {
  }

  /** `!els.length`: the query answered, with no element. */
  predicate FoundNothing(answer: Fetch<seq<Element>>) {
    answer.Done? && |answer.value| == 0
  }

  /** The map queries of one search, in order, and what the last one
      answered. */
  datatype Asked = Asked(queries: seq<Query>, answer: Fetch<seq<Element>>)

  /** The map queries of one search: the first at the start radius, and a
      second at the widened radius exactly when the first found nothing. */
  function AskMap(lat: string, lon: string, syn: Synonyms, wantStreet: bool,
                  zoneProvided: bool, overpass: Overpass): (a: Asked)
    ensures 1 <= |a.queries| <= 2
    ensures a.answer == overpass(a.queries[|a.queries| - 1])
    ensures forall k :: 0 <= k < |a.queries| ==> MinAround <= a.queries[k].around <= MaxAround
    ensures a.queries[0].around == Around(StartRadius(zoneProvided, wantStreet))
    ensures forall k :: 0 <= k < |a.queries| ==>
      && a.queries[k].lat == lat && a.queries[k].lon == lon
      && a.queries[k].nameRe == syn.nameRe && a.queries[k].cuisineRe == syn.cuisineRe
      && a.queries[k].diet == syn.diet && a.queries[k].includeFastFood == wantStreet
    ensures |a.queries| == 2 <==> FoundNothing(overpass(a.queries[0]))
    ensures |a.queries| == 2 ==>
      a.queries[1].around == Around(Widened(StartRadius(zoneProvided, wantStreet)))
  {
    var radius := StartRadius(zoneProvided, wantStreet);
    var q := Query(lat, lon, Around(radius), syn.nameRe, syn.cuisineRe, wantStreet, syn.diet);
    if FoundNothing(overpass(q)) then
      var q2 := q.(around := Around(Widened(radius)));
      Asked([q, q2], overpass(q2))
    else Asked([q], overpass(q))
  }

  /** The queries sent and the answer of one search. */
  datatype SearchRun = SearchRun(queries: seq<Query>, result: Fetch<seq<Scored>>)

  /** `searchPlaces`: query at the start radius; when that finds nothing,
      query once more at the widened radius; rank what the last query found.
      A failed query fails the search. */
  function SearchPlaces(lat: string, lon: string, cuisine: string, zoneProvided: bool,
                        overpass: Overpass): (s: SearchRun)
    ensures var a := AskMap(lat, lon, CuisineSyn(cuisine), WantsStreetFood(cuisine), zoneProvided, overpass);
      && s.queries == a.queries
      && (s.result.Threw? <==> a.answer.Threw?)
    ensures s.result.Done? ==>
      var r := s.result.value;
      && |r| <= 9
      && (forall k :: 0 <= k < |r| ==>
            r[k].score > 2 && r[k].place.name != [] && !IsChain(r[k].place.name, r[k].place.tags)
            && r[k].score == ScoreQuality(r[k].place, WantsStreetFood(cuisine), cuisine))
      && (forall i, j :: 0 <= i < j < |r| ==> r[i].score >= r[j].score)
    ensures s.result.Done? ==>
      var a := AskMap(lat, lon, CuisineSyn(cuisine), WantsStreetFood(cuisine), zoneProvided, overpass);
      a.answer.Done? && TopNineOf(s.result.value, Candidates(a.answer.value, WantsStreetFood(cuisine), cuisine))
  {
    var wantStreet := WantsStreetFood(cuisine);
    var a := AskMap(lat, lon, CuisineSyn(cuisine), wantStreet, zoneProvided, overpass);
    var r := Ranked(a.answer, wantStreet, cuisine);
    assert r.Done? ==> a.answer.Done? && TopNineOf(r.value, Candidates(a.answer.value, wantStreet, cuisine));
    SearchRun(a.queries, r)
  }

  /** Ranks what the last query found; a failed query fails the search. */
  function Ranked(answer: Fetch<seq<Element>>, wantStreet: bool, cuisine: string): (r: Fetch<seq<Scored>>)
    ensures r.Threw? <==> answer.Threw?
    ensures r.Done? ==>
      && |r.value| <= 9
      && (forall k :: 0 <= k < |r.value| ==>
            r.value[k].score > 2 && r.value[k].place.name != [] && !IsChain(r.value[k].place.name, r.value[k].place.tags)
            && r.value[k].score == ScoreQuality(r.value[k].place, wantStreet, cuisine))
      && (forall i, j :: 0 <= i < j < |r.value| ==> r.value[i].score >= r.value[j].score)
    ensures r.Done? ==> TopNineOf(r.value, Candidates(answer.value, wantStreet, cuisine))
  {
    match answer
    case Threw => Threw
    case Done(els) => Done(Shortlist(els, wantStreet, cuisine))
  }

  /** The two radii of a search are fixed by the request alone: 1500 then
      4000 metres with a zone, 2500 then 5000 for street food, 3500 then
      6000 otherwise. */
  lemma SearchRadii(lat: string, lon: string, cuisine: string, zoneProvided: bool, overpass: Overpass)
    ensures var street := WantsStreetFood(cuisine);
      var s := AskMap(lat, lon, CuisineSyn(cuisine), street, zoneProvided, overpass).queries;
      && s[0].around == (if zoneProvided then 1500 else if street then 2500 else 3500)
      && (|s| == 2 ==>
            s[1].around == (if zoneProvided then 4000 else if street then 5000 else 6000))
  {
  }
}

=== FILE: seqs.dfy ===
/** Sequence operations the engine takes from JavaScript's arrays: the stable
    `Array.prototype.sort` under a comparator that compares one key and then
    breaks ties on a second, and `Array.prototype.slice(0, end)`. */
module Seqs {

  /** A sort key compared lexicographically; the smaller key comes first. */
  datatype Rank = Rank(major: real, minor: real)

  /** `a` strictly precedes `b`: the comparator returns a negative number. */
  predicate Precedes(a: Rank, b: Rank) {
    a.major < b.major || (a.major == b.major && a.minor < b.minor)
  }

  /** No element strictly precedes an element placed before it. */
  predicate SortedBy<T>(xs: seq<T>, rank: T -> Rank) {
    forall i, j :: 0 <= i < j < |xs| ==> !Precedes(rank(xs[j]), rank(xs[i]))
  }

  /** Inserts `x` in front of the first element that does not strictly
      precede it, so that `x` stays ahead of later elements of equal rank. */
  function Insert<T>(x: T, ys: seq<T>, rank: T -> Rank): (r: seq<T>)
    ensures multiset(r) == multiset(ys) + multiset{x}
  {
    if ys == [] || !Precedes(rank(ys[0]), rank(x)) then [x] + ys
    else
      assert ys == [ys[0]] + ys[1..];
      [ys[0]] + Insert(x, ys[1..], rank)
  }

  /** Every element of `Insert(x, ys)` is `x` or an element of `ys`. */
  lemma InsertElements<T>(x: T, ys: seq<T>, rank: T -> Rank, j: nat)
    requires j < |Insert(x, ys, rank)|
    ensures Insert(x, ys, rank)[j] == x || Insert(x, ys, rank)[j] in ys
  {
    var r := Insert(x, ys, rank);
    assert r[j] in multiset(r);
  }

  /** Inserting into a sorted sequence keeps it sorted. */
  lemma {:induction false} InsertSorted<T>(x: T, ys: seq<T>, rank: T -> Rank)
    requires SortedBy(ys, rank)
    ensures SortedBy(Insert(x, ys, rank), rank)
  {
    if ys == [] || !Precedes(rank(ys[0]), rank(x)) {
      forall j | 0 <= j < |ys| ensures !Precedes(rank(ys[j]), rank(x)) {
        if j > 0 { assert !Precedes(rank(ys[j]), rank(ys[0])); }
      }
    } else {
      var rest := Insert(x, ys[1..], rank);
      InsertSorted(x, ys[1..], rank);
      forall j | 0 <= j < |rest| ensures !Precedes(rank(rest[j]), rank(ys[0])) {
        InsertElements(x, ys[1..], rank, j);
        if rest[j] != x {
          var m :| 0 <= m < |ys[1..]| && ys[1..][m] == rest[j];
          assert ys[m + 1] == rest[j];
        }
      }
      var r := [ys[0]] + rest;
      forall i, j | 0 <= i < j < |r| ensures !Precedes(rank(r[j]), rank(r[i])) {
        if i > 0 { assert r[i] == rest[i - 1] && r[j] == rest[j - 1]; }
      }
    }
  }

  /** A stable sort: the result is a permutation of `xs` in rank order. */
  function SortBy<T>(xs: seq<T>, rank: T -> Rank): (r: seq<T>)
    ensures multiset(r) == multiset(xs)
    ensures SortedBy(r, rank)
  {
    if xs == [] then []
    else
      assert xs == [xs[0]] + xs[1..];
      InsertSorted(xs[0], SortBy(xs[1..], rank), rank);
      Insert(xs[0], SortBy(xs[1..], rank), rank)
  }

  /** The elements of `xs` whose rank is `k`, in their order in `xs`. */
  function WithRank<T>(xs: seq<T>, rank: T -> Rank, k: Rank): seq<T> {
    if xs == [] then []
    else (if rank(xs[0]) == k then [xs[0]] else []) + WithRank(xs[1..], rank, k)
  }

  lemma {:induction false} InsertStable<T>(x: T, ys: seq<T>, rank: T -> Rank, k: Rank)
    ensures WithRank(Insert(x, ys, rank), rank, k)
         == (if rank(x) == k then [x] else []) + WithRank(ys, rank, k)
  {
    if ys == [] || !Precedes(rank(ys[0]), rank(x)) {
      assert ([x] + ys)[1..] == ys;
    } else {
      InsertStable(x, ys[1..], rank, k);
      assert ([ys[0]] + Insert(x, ys[1..], rank))[1..] == Insert(x, ys[1..], rank);
    }
  }

  /** The sort is stable: elements of equal rank keep their relative order. */
  lemma {:induction false} SortStable<T>(xs: seq<T>, rank: T -> Rank, k: Rank)
    ensures WithRank(SortBy(xs, rank), rank, k) == WithRank(xs, rank, k)
  {
    if xs != [] {
      SortStable(xs[1..], rank, k);
      InsertStable(xs[0], SortBy(xs[1..], rank), rank, k);
    }
  }

  /** A prefix of a sorted sequence holds its best elements: whatever was
      cut off does not strictly precede anything that was kept. */
  lemma PrefixTop<T>(s: seq<T>, r: seq<T>, rank: T -> Rank, x: T, i: nat)
    requires SortedBy(s, rank) && r <= s
    requires x in s && x !in r && i < |r|
    ensures !Precedes(rank(x), rank(r[i]))
  {
    var j :| 0 <= j < |s| && s[j] == x;
    assert forall k :: 0 <= k < |r| ==> r[k] == s[k];
    assert i < j;
  }

  /** `Array.prototype.slice(0, end)`: a negative `end` counts back from the
      end of the array. */
  function SliceTo<T>(xs: seq<T>, end: int): (r: seq<T>)
    ensures r <= xs
    ensures end >= 0 ==> |r| == (if end < |xs| then end else |xs|)
    ensures end < 0 ==> |r| == (if |xs| + end > 0 then |xs| + end else 0)
  {
    if end >= 0 then (if end < |xs| then xs[..end] else xs)
    else if |xs| + end > 0 then xs[..|xs| + end]
    else []
  }

  /** The first `end` elements of the stably sorted copy of `xs`
      (`.sort(cmp).slice(0, end)`): elements of `xs`, in rank order, and
      nothing left out strictly precedes anything kept. */
  function Top<T>(xs: seq<T>, rank: T -> Rank, end: int): (r: seq<T>)
    ensures end >= 0 ==> |r| == (if end < |xs| then end else |xs|)
    ensures end < 0 ==> |r| == (if |xs| + end > 0 then |xs| + end else 0)
    ensures multiset(r) <= multiset(xs)
    ensures forall k :: 0 <= k < |r| ==> r[k] in xs
    ensures SortedBy(r, rank)
    ensures forall x, i :: x in xs && x !in r && 0 <= i < |r| ==> !Precedes(rank(x), rank(r[i]))
  {
    var sorted := SortBy(xs, rank);
    var r := SliceTo(sorted, end);
    assert |sorted| == |multiset(sorted)| == |multiset(xs)| == |xs|;
    TopMembers(xs, sorted, r);
    TopOrder(xs, sorted, rank, r);
    r
  }

  /** A prefix of a permutation of `xs` holds elements of `xs`. */
  lemma TopMembers<T>(xs: seq<T>, sorted: seq<T>, r: seq<T>)
    requires multiset(sorted) == multiset(xs) && r <= sorted
    ensures multiset(r) <= multiset(xs)
    ensures forall k :: 0 <= k < |r| ==> r[k] in xs
  {
    assert sorted == r + sorted[|r|..];
    assert multiset(sorted) == multiset(r) + multiset(sorted[|r|..]);
    forall k | 0 <= k < |r| ensures r[k] in xs {
      assert r[k] in multiset(sorted);
    }
  }

  /** The elements of one rank in a prefix are a prefix of those in the
      whole. */
  lemma {:induction false} WithRankPrefix<T>(a: seq<T>, b: seq<T>, rank: T -> Rank, k: Rank)
    requires a <= b
    ensures WithRank(a, rank, k) <= WithRank(b, rank, k)
  {
    if a != [] {
      assert a[1..] <= b[1..];
      WithRankPrefix(a[1..], b[1..], rank, k);
    }
  }

  /** Ties are cut in input order: of the elements of one rank, those `Top`
      keeps are the first ones in `xs`. */
  lemma TopTies<T>(xs: seq<T>, rank: T -> Rank, end: int, k: Rank)
    ensures WithRank(Top(xs, rank, end), rank, k) <= WithRank(xs, rank, k)
  {
    var sorted := SortBy(xs, rank);
    WithRankPrefix(SliceTo(sorted, end), sorted, rank, k);
    SortStable(xs, rank, k);
  }

  /** A prefix of a sorted permutation of `xs` is sorted, and nothing of
      `xs` left out of it strictly precedes anything in it. */
  lemma TopOrder<T>(xs: seq<T>, sorted: seq<T>, rank: T -> Rank, r: seq<T>)
    requires multiset(sorted) == multiset(xs) && SortedBy(sorted, rank) && r <= sorted
    ensures SortedBy(r, rank)
    ensures forall x, i :: x in xs && x !in r && 0 <= i < |r| ==> !Precedes(rank(x), rank(r[i]))
  {
    forall i, j | 0 <= i < j < |r| ensures !Precedes(rank(r[j]), rank(r[i])) {
      assert r[i] == sorted[i] && r[j] == sorted[j];
    }
    forall x, i | x in xs && x !in r && 0 <= i < |r| ensures !Precedes(rank(x), rank(r[i])) {
      assert x in multiset(sorted);
      PrefixTop(sorted, r, rank, x, i);
    }
  }
}

=== FILE: slots.dfy ===
/** The per-conversation slot store: the session record, its creation on first
    use, `reset`, and the slot merge `setSlots` (index.js:15-56). */
module SlotStore {
  import opened Text
  import opened Optional

  /** The four search parameters of one conversation. */
  datatype Slots = Slots(city: string, zone: string, cuisine: string, budget: string)

  const EmptySlots := Slots("", "", "", "")

  /** A slot update as the JavaScript object handed to `setSlots`: `None` is a
      key the object does not have. A `null`, `undefined`, `false` or `0`
      value behaves exactly as `Some("")` in the merge, so it is written so. */
  datatype Update = Update(city: Option<string>, zone: Option<string>,
                           cuisine: Option<string>, budget: Option<string>)

  /** The empty object `{}`. */
  const NoUpdate := Update(None, None, None, None)

  /** One conversation's state. Times are milliseconds since the epoch. */
  datatype Session = Session(lang: string, slots: Slots, greetedAt: int,
                             lastAsked: string, lastMsgAt: int)

  /** The record a conversation starts with. */
  const FreshSession := Session("es", EmptySlots, 0, "", 0)

  /** The slots `setSlots` can leave behind: every slot trimmed, and the
      budget either empty or a run of two to six digits. */
  predicate Normalized(s: Slots) {
    && Trimmed(s.city) && Trimmed(s.zone) && Trimmed(s.cuisine)
    && (s.budget == [] || IsDigitToken(s.budget))
  }

  /** `session(id)`: the conversation's record, created fresh on first use. */
  function SessionOf(store: map<string, Session>, id: string): (r: (map<string, Session>, Session))
    ensures id in r.0 && r.0[id] == r.1
    ensures r.0.Keys == store.Keys + {id}
    ensures forall k :: k in store && k != id ==> r.0[k] == store[k]
    ensures id in store ==> r.1 == store[id]
    ensures id !in store ==> r.1 == FreshSession
  {
    if id in store then (store, store[id]) else (store[id := FreshSession], FreshSession)
  }

  /** `reset(id)`: clears the slots and the pending question, forgets the
      greeting, and stamps the activity time; the language is kept. */
  function Reset(s: Session, now: int): (r: Session)
    ensures r.slots == EmptySlots && r.lastAsked == [] && r.greetedAt == 0
    ensures r.lang == s.lang && r.lastMsgAt == now
  {
    s.(slots := EmptySlots, lastAsked := [], greetedAt := 0, lastMsgAt := now)
  }

  /** A reset conversation is a fresh one that keeps its language and its
      activity time. */
  lemma ResetIsFresh(s: Session, now: int)
    ensures Reset(s, now) == FreshSession.(lang := s.lang, lastMsgAt := now)
  {
  }

  /** The object spread `{ ...slots, ...upd }`: a key the update has wins,
      whatever its value. */
  function Spread(cur: Slots, upd: Update): Slots {
    Slots(upd.city.GetOr(cur.city), upd.zone.GetOr(cur.zone),
          upd.cuisine.GetOr(cur.cuisine), upd.budget.GetOr(cur.budget))
  }

  /** `if (merged.budget) merged.budget = match of /\d{2,6}/ or ""`: the
      truthiness test makes no difference, as "" has no digits. */
  function CutBudget(b: string): (r: string)
    ensures r == FirstDigitToken(b)
    ensures r == [] || IsDigitToken(r)
  {
    FirstDigitTokenShape(b);
    if b != [] then FirstDigitToken(b) else b
  }

  /** The slot merge of `setSlots`: spread, cut a non-empty budget down to its
      first run of two to six digits, and trim every value. */
  function MergeSlots(cur: Slots, upd: Update): (r: Slots)
    ensures Normalized(r)
    ensures r.city == Trim(if upd.city.Some? then upd.city.value else cur.city)
    ensures r.zone == Trim(if upd.zone.Some? then upd.zone.value else cur.zone)
    ensures r.cuisine == Trim(if upd.cuisine.Some? then upd.cuisine.value else cur.cuisine)
    ensures r.budget == FirstDigitToken(if upd.budget.Some? then upd.budget.value else cur.budget)
  {
    var merged := Spread(cur, upd);
    var budget := CutBudget(merged.budget);
    TokenTrimmed(budget);
    Slots(Trim(merged.city), Trim(merged.zone), Trim(merged.cuisine), Trim(budget))
  }

  /** `setSlots(id, upd)`: merges the update and stamps the activity time. */
  function SetSlots(s: Session, upd: Update, now: int): (r: Session)
    ensures r.slots == MergeSlots(s.slots, upd)
    ensures r.lastMsgAt == now
    ensures r.lang == s.lang && r.greetedAt == s.greetedAt && r.lastAsked == s.lastAsked
  {
    s.(slots := MergeSlots(s.slots, upd), lastMsgAt := now)
  }

  /** A slot the update lacks keeps its stored value; a slot the update has
      takes the update's value trimmed, even when that value is empty. */
  lemma MergeKeepsAbsentOverwritesPresent(cur: Slots, upd: Update)
    requires Normalized(cur)
    ensures var r := MergeSlots(cur, upd);
      && (upd.city.None? ==> r.city == cur.city)
      && (upd.zone.None? ==> r.zone == cur.zone)
      && (upd.cuisine.None? ==> r.cuisine == cur.cuisine)
      && (upd.budget.None? ==> r.budget == cur.budget)
      && (upd.city.Some? ==> r.city == Trim(upd.city.value))
      && (upd.zone.Some? ==> r.zone == Trim(upd.zone.value))
      && (upd.cuisine.Some? ==> r.cuisine == Trim(upd.cuisine.value))
  {
    TrimIdentity(cur.city);
    TrimIdentity(cur.zone);
    TrimIdentity(cur.cuisine);
    if cur.budget != [] { DigitTokenFixed(cur.budget); }
  }

  /** Merging the empty object into stored slots changes nothing. */
  lemma MergeNoUpdate(cur: Slots)
    requires Normalized(cur)
    ensures MergeSlots(cur, NoUpdate) == cur
  {
    MergeKeepsAbsentOverwritesPresent(cur, NoUpdate);
  }

  /** Applying the same update twice is the same as applying it once. */
  lemma MergeIdempotent(cur: Slots, upd: Update)
    ensures MergeSlots(MergeSlots(cur, upd), upd) == MergeSlots(cur, upd)
  {
    var once := MergeSlots(cur, upd);
    MergeKeepsAbsentOverwritesPresent(once, upd);
    var twice := MergeSlots(once, upd);
    if upd.city.Some? { assert twice.city == once.city; }
    if upd.zone.Some? { assert twice.zone == once.zone; }
    if upd.cuisine.Some? { assert twice.cuisine == once.cuisine; }
  }
}

=== FILE: text.dfy ===
/** String primitives with the semantics JavaScript gives them in the engine:
    whitespace and `trim`, lower-casing, substring search, the `\d{2,6}` digit
    run, `||` on strings, and `split`/`join` on a separator. */
module Text {

  /** The characters JavaScript treats as white space: the set shared by
      `String.prototype.trim` and the regular-expression class `\s`. */
  predicate IsSpace(c: char) {
    var n := c as int;
    n == 0x09 || n == 0x0A || n == 0x0B || n == 0x0C || n == 0x0D || n == 0x20
    || n == 0xA0 || n == 0x1680 || (0x2000 <= n <= 0x200A) || n == 0x2028
    || n == 0x2029 || n == 0x202F || n == 0x205F || n == 0x3000 || n == 0xFEFF
  }

  /** The regular-expression class `\d`: ASCII digits only. */
  predicate IsDigit(c: char) {
    '0' <= c <= '9'
  }

  predicate AllSpace(s: string) {
    forall k :: 0 <= k < |s| ==> IsSpace(s[k])
  }

  /** A string with no white space at either end. */
  predicate Trimmed(s: string) {
    s == [] || (!IsSpace(s[0]) && !IsSpace(s[|s| - 1]))
  }

  /** The first position at or after `i` that is not white space. */
  function SkipSpace(s: string, i: nat): (e: nat)
    requires i <= |s|
    ensures i <= e <= |s|
    ensures forall k :: i <= k < e ==> IsSpace(s[k])
    ensures e == |s| || !IsSpace(s[e])
    decreases |s| - i
  {
    if i < |s| && IsSpace(s[i]) then SkipSpace(s, i + 1) else i
  }

  /** The end of `s[a..j]` once the white space before `j` is dropped. */
  function SkipSpaceBack(s: string, a: nat, j: nat): (e: nat)
    requires a <= j <= |s|
    ensures a <= e <= j
    ensures forall k :: e <= k < j ==> IsSpace(s[k])
    ensures e == a || !IsSpace(s[e - 1])
    decreases j
  {
    if j > a && IsSpace(s[j - 1]) then SkipSpaceBack(s, a, j - 1) else j
  }

  /** How many white-space characters `s` starts with. */
  function LeadingSpace(s: string): (n: nat)
    ensures n <= |s|
  {
    SkipSpace(s, 0)
  }

  /** `String.prototype.trim`: the string without the white space at either
      end. */
  function Trim(s: string): (r: string)
    ensures Trimmed(r)
    ensures |r| <= |s|
  {
    var a := SkipSpace(s, 0);
    s[a..SkipSpaceBack(s, a, |s|)]
  }

  /** What trimming removes: the white space at the ends and nothing else. */
  lemma TrimInfix(s: string)
    ensures var r := Trim(s); var i := LeadingSpace(s);
      && i + |r| <= |s| && r == s[i..i + |r|]
      && AllSpace(s[..i]) && AllSpace(s[i + |r|..])
  {
  }

  /** Trimming changes a string exactly when it has white space at an end. */
  lemma {:induction false} TrimIdentity(s: string)
    ensures Trim(s) == s <==> Trimmed(s)
  {
    if Trimmed(s) {
      assert s[0..|s|] == s;
    }
  }

  /** Trimming is idempotent. */
  lemma TrimIdempotent(s: string)
    ensures Trim(Trim(s)) == Trim(s)
  {
    TrimIdentity(Trim(s));
  }

  /** Lower-casing of one character, as `toLowerCase` does for ASCII letters
      and the Latin-1 capitals (Á, É, Í, Ó, Ú, Ñ, Ü among them). */
  function LowerChar(c: char): (r: char)
    ensures IsSpace(r) <==> IsSpace(c)
    ensures IsDigit(r) <==> IsDigit(c)
    ensures 'A' <= c <= 'Z' ==> 'a' <= r <= 'z' && r as int == c as int + 32
    ensures c as int < 0x80 && !('A' <= c <= 'Z') ==> r == c
    ensures c as int > 0xDE ==> r == c
  {
    if 'A' <= c <= 'Z' || (0xC0 <= c as int <= 0xDE && c as int != 0xD7)
    then (c as int + 32) as char
    else c
  }

  /** `String.prototype.toLowerCase`, position by position. */
  function Lower(s: string): (r: string)
    ensures |r| == |s|
    ensures forall k :: 0 <= k < |s| ==> r[k] == LowerChar(s[k])
  {
    seq(|s|, k requires 0 <= k < |s| => LowerChar(s[k]))
  }

  /** `w` occurs in `s` starting at position `i`. */
  predicate At(s: string, i: nat, w: string) {
    i + |w| <= |s| && s[i..i + |w|] == w
  }

  /** `String.prototype.includes`. */
  predicate Contains(s: string, w: string) {
    exists i: nat :: i <= |s| && At(s, i, w)
  }

  /** JavaScript's `a || b` on two strings. */
  function Or(a: string, b: string): (r: string)
    ensures r == [] ==> a == [] && b == []
    ensures a != [] ==> r == a
    ensures a == [] ==> r == b
  {
    if a != [] then a else b
  }

  // ---------------------------------------------------------------------
  // The regular expression /\d{2,6}/: leftmost position with two digits,
  // then as many digits as follow, six at most.

  /** At least two digits start at position `i`. */
  predicate DigitPairAt(s: string, i: nat) {
    i + 1 < |s| && IsDigit(s[i]) && IsDigit(s[i + 1])
  }

  /** Length of the run of digits starting at `i`. */
  function DigitRunLength(s: string, i: nat): (n: nat)
    requires i <= |s|
    ensures i + n <= |s|
    ensures forall k :: i <= k < i + n ==> IsDigit(s[k])
    ensures i + n == |s| || !IsDigit(s[i + n])
    decreases |s| - i
  {
    if i < |s| && IsDigit(s[i]) then 1 + DigitRunLength(s, i + 1) else 0
  }

  /** A string the digit-run regular expression returns: two to six digits. */
  predicate IsDigitToken(r: string) {
    2 <= |r| <= 6 && forall k :: 0 <= k < |r| ==> IsDigit(r[k])
  }

  /** The digits /\d{2,6}/ takes when it matches at `p`: greedy, six at most. */
  function TokenAt(s: string, p: nat): (r: string)
    requires DigitPairAt(s, p)
    ensures IsDigitToken(r)
    ensures p + |r| <= |s| && r == s[p..p + |r|]
    ensures |r| == 6 || p + |r| == |s| || !IsDigit(s[p + |r|])
  {
    var n := DigitRunLength(s, p);
    assert DigitRunLength(s, p + 1) + 1 == n;
    s[p..p + (if n < 6 then n else 6)]
  }

  function DigitTokenFrom(s: string, i: nat): (r: string)
    requires i <= |s|
    decreases |s| - i
  {
    if i + 1 >= |s| then []
    else if DigitPairAt(s, i) then TokenAt(s, i)
    else DigitTokenFrom(s, i + 1)
  }

  /** The match of /\d{2,6}/ in `s`, or "" when there is none. */
  function FirstDigitToken(s: string): string {
    DigitTokenFrom(s, 0)
  }

  /** From position `i` on, the extraction finds the leftmost pair `p`. */
  lemma {:induction false} DigitTokenFromPair(s: string, i: nat, p: nat)
    requires i <= p && DigitPairAt(s, p)
    requires forall j: nat :: i <= j < p ==> !DigitPairAt(s, j)
    ensures DigitTokenFrom(s, i) == TokenAt(s, p)
    decreases p - i
  {
    if i < p {
      assert !DigitPairAt(s, i);
      DigitTokenFromPair(s, i + 1, p);
    }
  }

  lemma {:induction false} DigitTokenFromNone(s: string, i: nat)
    requires i <= |s|
    requires forall j: nat :: i <= j ==> !DigitPairAt(s, j)
    ensures DigitTokenFrom(s, i) == []
    decreases |s| - i
  {
    if i + 1 < |s| {
      assert !DigitPairAt(s, i);
      DigitTokenFromNone(s, i + 1);
    }
  }

  /** /\d{2,6}/ fails, giving "", exactly when no two digits are adjacent. */
  lemma FirstDigitTokenEmpty(s: string)
    ensures FirstDigitToken(s) == [] <==> forall j: nat :: !DigitPairAt(s, j)
  {
    if forall j: nat :: !DigitPairAt(s, j) {
      DigitTokenFromNone(s, 0);
    } else {
      var q: nat :| DigitPairAt(s, q);
      var p := LeftmostPair(s, q);
      FirstDigitTokenAt(s, p);
    }
  }

  /** Some leftmost pair exists at or before any pair. */
  ghost function LeftmostPair(s: string, q: nat): (p: nat)
    requires DigitPairAt(s, q)
    ensures p <= q && DigitPairAt(s, p)
    ensures forall j: nat :: j < p ==> !DigitPairAt(s, j)
  {
    if forall j: nat :: j < q ==> !DigitPairAt(s, j) then q
    else
      var j: nat :| j < q && DigitPairAt(s, j);
      LeftmostPair(s, j)
  }

  /** When `p` is the leftmost pair of digits, /\d{2,6}/ returns the two to six
      digits from `p`, stopping at six or at the first non-digit. */
  lemma FirstDigitTokenAt(s: string, p: nat)
    requires DigitPairAt(s, p)
    requires forall j: nat :: j < p ==> !DigitPairAt(s, j)
    ensures FirstDigitToken(s) == TokenAt(s, p)
  {
    DigitTokenFromPair(s, 0, p);
  }

  /** A digit token is its own match: extracting the run again changes nothing. */
  lemma DigitTokenFixed(r: string)
    requires IsDigitToken(r)
    ensures FirstDigitToken(r) == r
  {
    assert DigitPairAt(r, 0);
    var n := DigitRunLength(r, 0);
    assert n == |r|;
  }

  /** A digit token, and the empty string, have no white space to trim. */
  lemma TokenTrimmed(r: string)
    requires r == [] || IsDigitToken(r)
    ensures Trim(r) == r
  {
    TrimIdentity(r);
  }

  /** The extraction always yields "" or a digit token. */
  lemma FirstDigitTokenShape(s: string)
    ensures FirstDigitToken(s) == [] || IsDigitToken(FirstDigitToken(s))
  {
    if FirstDigitToken(s) != [] {
      FirstDigitTokenEmpty(s);
      var q: nat :| DigitPairAt(s, q);
      FirstDigitTokenAt(s, LeftmostPair(s, q));
    }
  }

  // ---------------------------------------------------------------------
  // split and join on a one-character separator

  /** `String.prototype.split(sep)` for a one-character separator. */
  function Split(s: string, sep: char): (parts: seq<string>)
    ensures |parts| >= 1
    ensures forall k :: 0 <= k < |parts| ==> sep !in parts[k]
  {
    if sep in s then
      var i := IndexOf(s, sep);
      [s[..i]] + Split(s[i + 1..], sep)
    else [s]
  }

  function IndexOf(s: string, c: char): (i: nat)
    requires c in s
    ensures i < |s| && s[i] == c && c !in s[..i]
  {
    if s[0] == c then 0 else 1 + IndexOf(s[1..], c)
  }

  /** `Array.prototype.join(sep)`. */
  function Join(parts: seq<string>, sep: string): string {
    if |parts| == 0 then []
    else if |parts| == 1 then parts[0]
    else parts[0] + sep + Join(parts[1..], sep)
  }

  /** Splitting and joining back on the same separator restores the string. */
  lemma {:induction false} SplitJoin(s: string, sep: char)
    ensures Join(Split(s, sep), [sep]) == s
    decreases |s|
  {
    if sep in s {
      var i := IndexOf(s, sep);
      var rest := Split(s[i + 1..], sep);
      var parts := [s[..i]] + rest;
      assert Split(s, sep) == parts;
      assert parts[1..] == rest;
      assert Join(parts, [sep]) == s[..i] + [sep] + Join(rest, [sep]);
      SplitJoin(s[i + 1..], sep);
      assert s == s[..i] + [sep] + s[i + 1..];
    }
  }
}

=== FILE: turn.dfy ===
/** One turn of the `/recommendation` handler (index.js:326-336, 360-477):
    the slot merge of the turn, the priority cascade that picks the reply and
    the slot to ask for next, and the composition of the whole turn over the
    session store, with the language model, the geocoder and the map service
    as oracles and the clock as a parameter. */
module Turn {
  import opened Text
  import opened Optional
  import opened SlotStore
  import opened Patterns
  import opened Search

  /** A conversation silent for longer than this, in milliseconds, is greeted
      again. */
  const IdleMs := 15 * 60 * 1000

  /** The four slots the handler can ask about. */
  datatype Slot = City | Zone | Cuisine | Budget

  /** The `next_slot` field of a reply: a slot's name, or "" for none. */
  function SlotName(slot: Option<Slot>): (n: string)
    ensures n == [] <==> slot.None?
    ensures OptionOfName(n) == slot
  {
    match slot
    case None => ""
    case Some(City) => "city"
    case Some(Zone) => "zone"
    case Some(Cuisine) => "cuisine"
    case Some(Budget) => "budget"
  }

  const CityEs := "¿En qué ciudad estás?"
  const CityEn := "Which city are you in?"
  const CuisineEs := "¿Qué se te antoja?"
  const CuisineEn := "What are you craving?"
  const ZoneEs := "¿Alguna zona/colonia preferida?"
  const ZoneEn := "Any preferred area/neighborhood?"
  const BudgetEs := "¿Presupuesto aproximado por persona?"
  const BudgetEn := "Approx budget per person?"

  /** `ask(slot, lang)`: the question for a slot, in Spanish for "es" and in
      English for any other language. */
  function Ask(slot: Slot, lang: string): (q: string)
    ensures q != []
  {
    var es := lang == "es";
    match slot
    case City => if es then CityEs else CityEn
    case Cuisine => if es then CuisineEs else CuisineEn
    case Zone => if es then ZoneEs else ZoneEn
    case Budget => if es then BudgetEs else BudgetEn
  }

  /** The follow-up of a reply: the question for the slot, or "" for none. */
  function AskFor(slot: Option<Slot>, lang: string): (q: string)
    ensures q == [] <==> slot.None?
  {
    if slot.Some? then Ask(slot.value, lang) else ""
  }

  /** Different slots are asked about with different questions, in either
      language. */
  lemma {:induction false} AskInjective(a: Slot, b: Slot, lang: string)
    requires a != b
    ensures Ask(a, lang) != Ask(b, lang)
  {
    var x := Ask(a, lang);
    var y := Ask(b, lang);
    if lang == "es" {
      assert x[1] != y[1];
    } else {
      assert x[1] != y[1] || x[2] != y[2];
    }
  }

  // ---------------------------------------------------------------------
  // The decision cascade (index.js:378-468)

  /** The kinds of reply the handler gives. */
  datatype ReplyKind = ResetDone | Greeting | NeedCity | NeedCuisine | CannotPlace | Nudge | Options

  datatype Decision = Decision(reply: ReplyKind, next: Option<Slot>)

  /** The handler's cascade, first matching rule wins: a reset request; a
      greeting after silence or on "hello"; a missing city; a missing
      cuisine unless the user asked to be surprised; a place the geocoder
      cannot find; a search with no result; and finally the list of places,
      asking next for the zone, then the budget, then nothing. */
  function Decide(reset: bool, idle: bool, hello: bool, slots: Slots, surprise: bool,
                  geoOk: bool, resultsEmpty: bool): (d: Decision)
    ensures d.reply == ResetDone <==> reset
    ensures d.next == Some(City) <==> reset || idle || hello || slots.city == []
    ensures d.next.None? <==> d.reply == Options && slots.zone != [] && slots.budget != []
    ensures d.next == Some(Budget) ==> d.reply == Options && slots.zone != [] && slots.budget == []
    ensures d.reply == Options ==>
      && !reset && !idle && !hello && slots.city != [] && (slots.cuisine != [] || surprise)
      && geoOk && !resultsEmpty
    ensures d.next == Some(Cuisine) ==>
      && !reset && !idle && !hello && slots.city != []
      && ((slots.cuisine == [] && !surprise) || (slots.zone != [] && geoOk && resultsEmpty))
    ensures d.next == Some(Zone) ==>
      && !reset && !idle && !hello && slots.city != []
      && (!geoOk || slots.zone == [])
    ensures !reset && (idle || hello) ==> d == Decision(Greeting, Some(City))
    ensures !reset && !idle && !hello && slots.city == [] ==> d == Decision(NeedCity, Some(City))
    ensures !reset && !idle && !hello && slots.city != [] && slots.cuisine == [] && !surprise
            ==> d == Decision(NeedCuisine, Some(Cuisine))
    ensures !reset && !idle && !hello && slots.city != [] && (slots.cuisine != [] || surprise) && !geoOk
            ==> d == Decision(CannotPlace, Some(Zone))
    ensures !reset && !idle && !hello && slots.city != [] && (slots.cuisine != [] || surprise) && geoOk && resultsEmpty
            ==> d == Decision(Nudge, Some(if slots.zone != [] then Cuisine else Zone))
    ensures !reset && !idle && !hello && slots.city != [] && (slots.cuisine != [] || surprise) && geoOk && !resultsEmpty
            ==> d == Decision(Options, AfterOptions(slots))
  {
    if reset then Decision(ResetDone, Some(City))
    else if idle || hello then Decision(Greeting, Some(City))
    else if slots.city == [] then Decision(NeedCity, Some(City))
    else if slots.cuisine == [] && !surprise then Decision(NeedCuisine, Some(Cuisine))
    else if !geoOk then Decision(CannotPlace, Some(Zone))
    else if resultsEmpty then Decision(Nudge, Some(if slots.zone != [] then Cuisine else Zone))
    else Decision(Options, if slots.zone == [] then Some(Zone)
                           else if slots.budget == [] then Some(Budget) else None)
  }

  /** The slot asked for after a list of places: the zone, else the
      budget, else none. */
  function AfterOptions(slots: Slots): (slot: Option<Slot>)
    ensures slot.None? <==> slots.zone != [] && slots.budget != []
    ensures slot == Some(Zone) <==> slots.zone == []
    ensures slot == Some(Budget) <==> slots.zone != [] && slots.budget == []
  {
    if slots.zone == [] then Some(Zone) else if slots.budget == [] then Some(Budget) else None
  }

  /** index.js:459-461: the follow-up question after a list of places. */
  function FollowUp(slots: Slots, lang: string): (q: string)
    ensures q == AskFor(AfterOptions(slots), lang)
  {
    if slots.zone == [] then Ask(Zone, lang)
    else if slots.budget == [] then Ask(Budget, lang)
    else ""
  }

  /** index.js:467: `next_slot` recovered from the follow-up text, by
      comparing it with the zone question. */
  function SlotOfFollowUp(follow: string, lang: string): (n: string)
    ensures n == [] <==> follow == []
    ensures follow != [] ==> n == (if follow == Ask(Zone, lang) then "zone" else "budget")
  {
    if follow != [] then (if follow == Ask(Zone, lang) then "zone" else "budget") else ""
  }

  /** Reading the slot back from the rendered question gives the slot the
      question was chosen for, in either language. */
  lemma FollowUpNamesItsSlot(slots: Slots, lang: string)
    ensures SlotOfFollowUp(FollowUp(slots, lang), lang) == SlotName(AfterOptions(slots))
  {
    if slots.zone != [] && slots.budget == [] {
      AskInjective(Budget, Zone, lang);
    }
  }

  // ---------------------------------------------------------------------
  // The turn (index.js:360-477)

  /** The request body fields the handler reads; a missing string field is
      "". `slots` is the body's `slots` object. */
  datatype Body = Body(message: string, username: string, userId: string,
                       city: string, zone: string, cuisine: string, budget: string,
                       slots: Update)

  /** The handler's answer: 400 for a missing user id, 500 when the geocoder
      or the map service fails, otherwise a reply of some kind with its
      follow-up question, the slots, and `next_slot`. */
  datatype Response =
    | BadRequest
    | TechnicalError
    | Answer(reply: ReplyKind, followup: string, slots: Slots, nextSlot: string, places: seq<Scored>)

  /** The language model's slot updates for a message and the slots so far. */
  type Nlu = (string, Slots) -> Update

  /** index.js:391-394: the first update of a turn, the four body fields
      overridden by the body's `slots` object. It carries all four keys. */
  function BodyUpdate(b: Body): (u: Update)
    ensures u.city.Some? && u.zone.Some? && u.cuisine.Some? && u.budget.Some?
    ensures b.slots.city.None? ==> u.city == Some(b.city)
    ensures b.slots.zone.None? ==> u.zone == Some(b.zone)
    ensures b.slots.cuisine.None? ==> u.cuisine == Some(b.cuisine)
    ensures b.slots.budget.None? ==> u.budget == Some(b.budget)
    ensures b.slots.city.Some? ==> u.city == b.slots.city
    ensures b.slots.zone.Some? ==> u.zone == b.slots.zone
    ensures b.slots.cuisine.Some? ==> u.cuisine == b.slots.cuisine
    ensures b.slots.budget.Some? ==> u.budget == b.slots.budget
  {
    Update(Some(b.slots.city.GetOr(b.city)), Some(b.slots.zone.GetOr(b.zone)),
           Some(b.slots.cuisine.GetOr(b.cuisine)), Some(b.slots.budget.GetOr(b.budget)))
  }

  /** The two merges of a turn: the body's fields, then the language model's
      updates computed from the message and the slots after the first. As
      the first update carries all four keys, each slot ends as the language
      model's value when it gives one and as the body's value otherwise,
      trimmed (the budget cut to its digits); the stored slots never show
      through. */
  function TurnMerge(s: Session, b: Body, nlu: Nlu, now: int): (r: Session)
    ensures Normalized(r.slots)
    ensures r.lang == s.lang && r.greetedAt == s.greetedAt && r.lastAsked == s.lastAsked
    ensures r.lastMsgAt == now
    ensures var mid := MergeSlots(s.slots, BodyUpdate(b));
      var u := nlu(b.message, mid);
      && r.slots == MergeSlots(mid, u)
      && r.slots.city == Trim(if u.city.Some? then u.city.value else b.slots.city.GetOr(b.city))
      && r.slots.zone == Trim(if u.zone.Some? then u.zone.value else b.slots.zone.GetOr(b.zone))
      && r.slots.cuisine == Trim(if u.cuisine.Some? then u.cuisine.value else b.slots.cuisine.GetOr(b.cuisine))
      && r.slots.budget == FirstDigitToken(if u.budget.Some? then u.budget.value else b.slots.budget.GetOr(b.budget))
  {
    var s1 := SetSlots(s, BodyUpdate(b), now);
    var u := nlu(b.message, s1.slots);
    MergeKeepsAbsentOverwritesPresent(s1.slots, u);
    TrimIdempotent(b.slots.city.GetOr(b.city));
    TrimIdempotent(b.slots.zone.GetOr(b.zone));
    TrimIdempotent(b.slots.cuisine.GetOr(b.cuisine));
    SetSlots(s1, u, now)
  }

  /** What was stored before the turn has no say in the slots after it. */
  lemma TurnIgnoresStoredSlots(s: Session, stored: Slots, b: Body, nlu: Nlu, now: int)
    ensures TurnMerge(s.(slots := stored), b, nlu, now).slots == TurnMerge(s, b, nlu, now).slots
  {
    assert MergeSlots(stored, BodyUpdate(b)) == MergeSlots(s.slots, BodyUpdate(b));
  }

  /** Every turn overwrites all four stored slots: when the body gives a
      blank city and the language model gives a blank city or none, the
      turn ends with no city, whatever was stored before. */
  lemma TurnForgetsUnsupplied(s: Session, b: Body, nlu: Nlu, now: int)
    requires Trim(b.slots.city.GetOr(b.city)) == []
    requires forall sl :: Trim(nlu(b.message, sl).city.GetOr([])) == []
    ensures TurnMerge(s, b, nlu, now).slots.city == []
  {
    var mid := MergeSlots(s.slots, BodyUpdate(b));
    assert Trim(nlu(b.message, mid).city.GetOr([])) == [];
  }

  /** A pin the handler can search around: both coordinates present. */
  predicate Placed(pin: Fetch<Option<Hit>>) {
    pin.Done? && pin.value.Some? && pin.value.value.lat != [] && pin.value.value.lon != []
  }

  /** The slot a `next_slot` text names, `None` for "" or any other text. */
  function OptionOfName(name: string): Option<Slot> {
    if name == "city" then Some(City)
    else if name == "zone" then Some(Zone)
    else if name == "cuisine" then Some(Cuisine)
    else if name == "budget" then Some(Budget)
    else None
  }

  /** An answer whose follow-up question is the one for the slot its
      `next_slot` names, carrying the given slots. */
  predicate Consistent(r: Response, lang: string, slots: Slots) {
    r.Answer? ==> r.slots == slots && r.followup == AskFor(OptionOfName(r.nextSlot), lang)
  }

  /** The answer with the decision's follow-up question. */
  function Reply(d: Decision, lang: string, slots: Slots, places: seq<Scored>): (r: Response)
    ensures r.Answer? && r.reply == d.reply && r.slots == slots && r.places == places
    ensures r.followup == AskFor(d.next, lang) && r.nextSlot == SlotName(d.next)
    ensures Consistent(r, lang, slots)
  {
    Answer(d.reply, AskFor(d.next, lang), slots, SlotName(d.next), places)
  }

  /** index.js:458-468: the list of places, with the follow-up question
      chosen from the slots and `next_slot` read back from its text. This is
      the reply the cascade's last rule prescribes. */
  function OptionsReply(slots: Slots, lang: string, results: seq<Scored>): (r: Response)
    ensures r == Reply(Decision(Options, AfterOptions(slots)), lang, slots, results)
  {
    var follow := FollowUp(slots, lang);
    FollowUpNamesItsSlot(slots, lang);
    Answer(Options, follow, slots, SlotOfFollowUp(follow, lang), results)
  }

  /** index.js:449-468: the reply to the search's answer. */
  function Listed(slots: Slots, lang: string, result: Fetch<seq<Scored>>): (r: Response)
    ensures !r.BadRequest?
    ensures r.TechnicalError? <==> result.Threw?
    ensures Consistent(r, lang, slots)
    ensures r.Answer? ==> r.reply == (if result.value == [] then Nudge else Options)
    ensures r.Answer? && r.reply == Nudge ==> r.nextSlot == (if slots.zone != [] then "cuisine" else "zone")
    ensures r.Answer? && r.reply == Options ==>
      r.places == result.value && r.nextSlot == SlotName(AfterOptions(slots))
  {
    match result
    case Threw => TechnicalError
    case Done(results) =>
      if results == [] then
        Reply(Decision(Nudge, Some(if slots.zone != [] then Cuisine else Zone)), lang, slots, [])
      else OptionsReply(slots, lang, results)
  }

  /** index.js:430-468: the reply to the geocoder's answer; a pin with both
      coordinates is searched around. */
  function Geolocated(slots: Slots, lang: string, pin: Fetch<Option<Hit>>, overpass: Overpass): (r: Response)
    ensures !r.BadRequest?
    ensures Consistent(r, lang, slots)
    ensures r.TechnicalError? ==> pin.Threw? || Placed(pin)
    ensures pin.Done? && !Placed(pin) ==> r == Reply(Decision(CannotPlace, Some(Zone)), lang, slots, [])
    ensures r.Answer? && r.reply == Options ==> Placed(pin) && 1 <= |r.places| <= 9
  {
    if pin.Threw? then TechnicalError
    else if !Placed(pin) then Reply(Decision(CannotPlace, Some(Zone)), lang, slots, [])
    else
      var hit := pin.value.value;
      Listed(slots, lang, SearchPlaces(hit.lat, hit.lon, slots.cuisine, slots.zone != [], overpass).result)
  }

  /** index.js:410-468, once the slots are settled and no greeting is due:
      ask for a missing city, then for a missing cuisine unless the user
      asked to be surprised, else locate and search. */
  function Locate(slots: Slots, lang: string, message: string,
                  geocode: Geocoder, overpass: Overpass): (r: Response)
    ensures !r.BadRequest?
    ensures Consistent(r, lang, slots)
    ensures slots.city == [] ==> r == Reply(Decision(NeedCity, Some(City)), lang, slots, [])
    ensures r.TechnicalError? ==> slots.city != [] && (slots.cuisine != [] || WantsSurprise(message))
    ensures r.Answer? && r.reply == Options ==>
      slots.city != [] && (slots.cuisine != [] || WantsSurprise(message)) && 1 <= |r.places| <= 9
  {
    if slots.city == [] then Reply(Decision(NeedCity, Some(City)), lang, slots, [])
    else if slots.cuisine == [] && !WantsSurprise(message) then
      Reply(Decision(NeedCuisine, Some(Cuisine)), lang, slots, [])
    else
      Geolocated(slots, lang, GeocodeCityZone(NormalizeCity(slots.city), slots.zone, geocode).pin, overpass)
  }

  /** The turn once the session is found and its language set: a reset
      request clears the session; otherwise the slots are merged, and a
      greeting is due after silence or on "hello", stamping `greetedAt`. */
  function Respond(s: Session, b: Body, now: int, nlu: Nlu,
                   geocode: Geocoder, overpass: Overpass): (r: (Session, Response))
    ensures !r.1.BadRequest?
    ensures r.0.lang == s.lang && r.0.lastMsgAt == now && Normalized(r.0.slots)
    ensures Consistent(r.1, s.lang, r.0.slots)
    ensures IsResetRequest(b.message) ==>
      r.0 == Reset(s, now) && r.1.Answer? && r.1.reply == ResetDone && r.1.nextSlot == "city"
    ensures !IsResetRequest(b.message) && (now - s.lastMsgAt > IdleMs || IsGreeting(b.message)) ==>
      r.0.greetedAt == now && r.1.Answer? && r.1.reply == Greeting && r.1.nextSlot == "city"
    ensures !IsResetRequest(b.message) ==>
      var mid := MergeSlots(s.slots, BodyUpdate(b));
      && r.0.slots == MergeSlots(mid, nlu(b.message, mid))
      && r.0.lastAsked == s.lastAsked
    ensures !IsResetRequest(b.message) && !(now - s.lastMsgAt > IdleMs || IsGreeting(b.message)) ==>
      && r.0.greetedAt == s.greetedAt
      && r.1 == Locate(r.0.slots, s.lang, b.message, geocode, overpass)
  {
    if IsResetRequest(b.message) then
      var cleared := Reset(s, now);
      assert Normalized(cleared.slots);
      (cleared, Reply(Decision(ResetDone, Some(City)), s.lang, cleared.slots, []))
    else
      var merged := TurnMerge(s, b, nlu, now);
      if now - s.lastMsgAt > IdleMs || IsGreeting(b.message) then
        (merged.(greetedAt := now), Reply(Decision(Greeting, Some(City)), s.lang, merged.slots, []))
      else
        (merged, Locate(merged.slots, s.lang, b.message, geocode, overpass))
  }

  /** The conversation's record written back into the store. */
  function StoreTurn(store: map<string, Session>, id: string, turn: (Session, Response)): (r: (map<string, Session>, Response))
    ensures id in r.0 && r.0[id] == turn.0 && r.1 == turn.1
    ensures r.0.Keys == store.Keys + {id}
    ensures forall k :: k in store && k != id ==> r.0[k] == store[k]
  {
    (store[id := turn.0], turn.1)
  }

  /** The POST `/recommendation` handler: the store after the turn and the
      response. `now` is the clock reading of the turn. */
  function HandleTurn(store: map<string, Session>, b: Body, now: int, nlu: Nlu,
                      geocode: Geocoder, overpass: Overpass): (r: (map<string, Session>, Response))
    ensures b.userId == [] <==> r.1.BadRequest?
    ensures r.1.BadRequest? ==> r.0 == store
    ensures !r.1.BadRequest? ==>
      && b.userId in r.0 && r.0.Keys == store.Keys + {b.userId}
      && (forall k :: k in store && k != b.userId ==> r.0[k] == store[k])
      && r.0[b.userId].lang == DetectLang(Or(b.message, b.username))
      && r.0[b.userId].lastMsgAt == now
      && Normalized(r.0[b.userId].slots)
      && Consistent(r.1, r.0[b.userId].lang, r.0[b.userId].slots)
    ensures !r.1.BadRequest? && !IsResetRequest(b.message) ==>
      var before := SessionOf(store, b.userId).1;
      var mid := MergeSlots(before.slots, BodyUpdate(b));
      && r.0[b.userId].slots == MergeSlots(mid, nlu(b.message, mid))
      && r.0[b.userId].lastAsked == before.lastAsked
    ensures !r.1.BadRequest? && !IsResetRequest(b.message)
            && !(now - SessionOf(store, b.userId).1.lastMsgAt > IdleMs || IsGreeting(b.message)) ==>
      r.0[b.userId].greetedAt == SessionOf(store, b.userId).1.greetedAt
    ensures !r.1.BadRequest? && IsResetRequest(b.message) ==>
      r.0[b.userId] == Reset(SessionOf(store, b.userId).1, now).(lang := DetectLang(Or(b.message, b.username)))
  {
    if b.userId == [] then (store, BadRequest)
    else
      var found := SessionOf(store, b.userId);
      var s := found.1.(lang := UseLang(found.1.lang, Or(b.message, b.username)));
      var turn := Respond(s, b, now, nlu, geocode, overpass);
      StoreTurn(found.0, b.userId, turn)
  }

  // ---------------------------------------------------------------------
  // The turn agrees with the cascade

  /** After the slots are settled, the reply and `next_slot` are those the
      cascade picks from the geocoder's and the map service's answers, and
      the turn fails exactly when one of those services fails. */
  lemma {:induction false} LocateFollowsDecide(slots: Slots, lang: string, message: string,
                                               geocode: Geocoder, overpass: Overpass)
    ensures var r := Locate(slots, lang, message, geocode, overpass);
      var pin := GeocodeCityZone(NormalizeCity(slots.city), slots.zone, geocode).pin;
      var found := if Placed(pin)
                   then SearchPlaces(pin.value.value.lat, pin.value.value.lon, slots.cuisine,
                                     slots.zone != [], overpass).result
                   else Done([]);
      var d := Decide(false, false, false, slots, WantsSurprise(message), Placed(pin), found == Done([]));
      && (r.Answer? ==> r.reply == d.reply && r.nextSlot == SlotName(d.next))
      && (r.TechnicalError? <==>
            slots.city != [] && (slots.cuisine != [] || WantsSurprise(message))
            && (pin.Threw? || found.Threw?))
  {
    var r := Locate(slots, lang, message, geocode, overpass);
    if slots.city != [] && (slots.cuisine != [] || WantsSurprise(message)) {
      var pin := GeocodeCityZone(NormalizeCity(slots.city), slots.zone, geocode).pin;
      assert r == Geolocated(slots, lang, pin, overpass);
      if Placed(pin) {
        var found := SearchPlaces(pin.value.value.lat, pin.value.value.lon, slots.cuisine,
                                  slots.zone != [], overpass).result;
        assert r == Listed(slots, lang, found);
      }
    }
  }

  /** The whole turn: its reply and `next_slot` are those the cascade picks
      from the reset request, the silence since the last message, the
      greeting, the settled slots, the surprise request, and the services'
      answers. */
  lemma HandleFollowsDecide(store: map<string, Session>, b: Body, now: int, nlu: Nlu,
                            geocode: Geocoder, overpass: Overpass)
    requires b.userId != []
    ensures var r := HandleTurn(store, b, now, nlu, geocode, overpass);
      var before := SessionOf(store, b.userId).1;
      var slots := r.0[b.userId].slots;
      var pin := GeocodeCityZone(NormalizeCity(slots.city), slots.zone, geocode).pin;
      var found := if Placed(pin)
                   then SearchPlaces(pin.value.value.lat, pin.value.value.lon, slots.cuisine,
                                     slots.zone != [], overpass).result
                   else Done([]);
      var d := Decide(IsResetRequest(b.message), now - before.lastMsgAt > IdleMs,
                      IsGreeting(b.message), slots, WantsSurprise(b.message), Placed(pin),
                      found == Done([]));
      r.1.Answer? ==> r.1.reply == d.reply && r.1.nextSlot == SlotName(d.next)
  {
    var found := SessionOf(store, b.userId);
    var s := found.1.(lang := UseLang(found.1.lang, Or(b.message, b.username)));
    var turn := Respond(s, b, now, nlu, geocode, overpass);
    assert HandleTurn(store, b, now, nlu, geocode, overpass) == StoreTurn(found.0, b.userId, turn);
    if !IsResetRequest(b.message) && !(now - s.lastMsgAt > IdleMs || IsGreeting(b.message)) {
      LocateFollowsDecide(turn.0.slots, s.lang, b.message, geocode, overpass);
    }
  }

  /** A conversation's first turn is greeted: a new session was last active
      at time 0, so any turn after the first fifteen minutes of the epoch
      finds it idle, unless the message asks for a reset. */
  lemma FirstTurnGreets(store: map<string, Session>, b: Body, now: int, nlu: Nlu,
                        geocode: Geocoder, overpass: Overpass)
    requires b.userId != [] && b.userId !in store && now > IdleMs && !IsResetRequest(b.message)
    ensures var r := HandleTurn(store, b, now, nlu, geocode, overpass);
      && r.1.Answer? && r.1.reply == Greeting && r.1.nextSlot == "city"
      && r.1.followup == Ask(City, DetectLang(Or(b.message, b.username)))
      && r.0[b.userId].greetedAt == now
  {
    var found := SessionOf(store, b.userId);
    var s := found.1.(lang := UseLang(found.1.lang, Or(b.message, b.username)));
    assert s.lastMsgAt == 0;
  }
}
